=== FILE: README.md ===
# Tier transitions of the IoT data lake, in Dafny

This project models the two AWS Lambda handlers that move sensor readings
through the storage tiers of the data lake:

- **The bronze-to-silver classifier** (`process_iot_data.py`). It reads a CSV
  object, scores each row by its `anomaly_score`, and sends rows scoring
  strictly above 0.5 to the anomalies table and the rest to the silver table.
  A missing or unparseable score counts as 0. Both tables are always written,
  under keys derived from the input key.
- **The silver-to-gold aggregator** (`process_silver_to_gold.py`). It reads a
  silver CSV object and groups its rows by `device_id`, in first-seen order.
  It keeps count, sum, minimum, maximum and anomaly count per device, and
  writes one gold row per device that has at least one readable row.
- **The key derivation** both handlers use. Python's `str.replace` rewrites
  every occurrence of the tier segment in the key.

Modules, one file each:

- `Basics` (basics.dfy): `Option`, `Result`, the Python exceptions that can
  arise, and the 0.5 threshold.
- `Keys` (keys.dfy): `startswith`, `endswith`, `str.replace` and the three
  key derivations.
- `Tables` (tables.dfy): what `csv.DictReader` and `csv.DictWriter` do at the
  level of already-split records.
  - Short records are padded with `None`.
  - Long records keep their extra cells under the `None` rest key.
  - Blank records are skipped.
  - Writing a row with a column outside the header raises `ValueError`.
  - Writing with no header raises `TypeError`.
- `Bronze` (bronze.dfy): the classifier.
- `Gold` (gold.dfy): the aggregator.
- `Pipeline` (pipeline.dfy): facts that connect the two stages.

Float parsing is a parameter `parse: string -> Option<real>` of every
operation that parses. `None` stands for a `ValueError` from `float`. A
missing cell (Python `None`) is a separate case, `Null`: the classifier
coerces it to 0, while in the aggregator it raises `TypeError`.

Arithmetic is exact (`real`). Each storage write becomes an entry of a
returned key-to-table map.

The main results:

- The classifier's split is total, disjoint and stable. It keeps the rows in
  input order and the multiset of rows overall.
- A row goes to anomalies exactly when its score is above 0.5.
- The gold table is the reference summary of the silver rows:
  - each gold row describes exactly its device's readable rows, with
    minimum ≤ average ≤ maximum and a percentage in [0, 100] (in exact
    arithmetic);
  - every device with a readable row appears, once, in first-seen order;
  - no reading is lost;
  - `devices_processed` counts every distinct device key.
- On a `silver/…csv` key and a table with at least one row, the aggregator
  answers 500 exactly when some row has a `None` value, or a value that reads
  as a number followed by a `None` score (a missing `value` column reads as
  0); otherwise it answers 200 and writes the gold table. Any other key, or a
  table without rows, gets 200 and no write.
- For a `.csv` key under `bronze/`, the aggregator accepts the silver key the
  classifier writes. When the classifier succeeds on a table read from CSV
  with a non-empty header, the aggregator run on that silver table reports 0
  anomalies for every device. This needs the two output keys to differ,
  which the `bronze/` prefix ensures (`Keys.BronzeKeysDiffer`); a `.csv` key
  without `bronze/` gives one key for both tables
  (`Keys.UnprefixedKeyCollides`).

## Behaviour worth knowing

- Keys: `str.replace` rewrites every occurrence of `bronze/` (or
  `silver/`) in a key (`Keys.EveryOccurrenceIsRewritten`).
- The classifier writes the anomalies table on every successful run, as the
  header alone when no row is an anomaly.
- The classifier has no `try` around its body. An exception escapes the
  handler, and what was already written stays written (`Bronze.Outcome.Failed`).
- An empty bronze object has no header. Writing its header raises
  `TypeError`, so the classifier fails and writes nothing.
- The aggregator creates a device's entry before it parses the row. Devices
  whose every row is skipped therefore exist: they count in
  `devices_processed` but produce no gold row
  (`Gold.SkippedDeviceCountsWithoutGoldRow`).
- A `None` cell in `value` or `anomaly_score` is not a skipped row. It raises
  `TypeError`, which the per-row `except ValueError` does not catch, so the
  whole invocation answers 500. Only a `ValueError` skips the row.
  - `value` is parsed first: an unparseable value skips the row before its
    score is looked at.

## Model

| member | source | states |
|---|---|---|
| `Keys.SilverKey` | cloud-infrastructure/lambda/process_iot_data.py:45 | a key under `bronze/` yields a silver key under `silver/` |
| `Keys.AnomaliesKey` | cloud-infrastructure/lambda/process_iot_data.py:50 | a key under `bronze/` yields an anomalies key under `anomalies/` |
| `Keys.GoldKey` | cloud-infrastructure/lambda/process_silver_to_gold.py:95 | a key under `silver/` yields a gold key under `gold/` |
| `Keys.ReplaceAllWithoutOccurrence` | cloud-infrastructure/lambda/process_iot_data.py:45 | a key that does not contain the pattern is returned unchanged |
| `Keys.ReplaceAll` | cloud-infrastructure/lambda/process_iot_data.py:45 | replacing the pattern by itself changes nothing, and a replacement as long as the pattern keeps the key's length (so `bronze/` to `silver/` does) |
| `Keys.LeadingBronzeIsSwapped` | cloud-infrastructure/lambda/process_iot_data.py:45-50 | `bronze/` followed by a name without `bronze/` gives `silver/` and `anomalies/` followed by the same name |
| `Keys.LeadingSilverIsSwapped` | cloud-infrastructure/lambda/process_silver_to_gold.py:95 | `silver/` followed by a name without `silver/` gives `gold/` followed by the same name |
| `Keys.KeepsCsvExtension` | cloud-infrastructure/lambda/process_iot_data.py:45 | rewriting a tier segment keeps a `.csv` key a `.csv` key |
| `Keys.EveryOccurrenceIsRewritten` | cloud-infrastructure/lambda/process_iot_data.py:45 | in a key of the form `bronze/` + dir + `bronze/` + file, where dir holds no `b`, both mentions of `bronze/` become `silver/`, and file is rewritten the same way |
| `Keys.BronzeKeysDiffer` | cloud-infrastructure/lambda/process_iot_data.py:45-50 | a key under `bronze/` gives different silver and anomalies keys, so neither write replaces the other |
| `Keys.UnprefixedKeyCollides` | cloud-infrastructure/lambda/process_iot_data.py:45-50 | for a key without `bronze/`, the silver and anomalies keys both equal the input key |
| `Tables.Decode` | cloud-infrastructure/lambda/process_iot_data.py:26-27 | the header is absent exactly when the input has no record; every row is keyed by exactly the header's names |
| `Tables.Encode` | cloud-infrastructure/lambda/process_iot_data.py:66-76 | writing succeeds exactly when there is a header and every row fits it; no header raises `TypeError`; the output is the header and one full-width line per row |
| `Tables.WriteThenRead` | cloud-infrastructure/lambda/process_iot_data.py:66-76 | writing decoded rows and reading them back gives the same header and rows, with `None` cells turned into empty text |
| `Tables.HeaderOnlyRoundTrip` | cloud-infrastructure/lambda/process_iot_data.py:67-71 | no rows are written as the header alone, which reads back as that header with no rows |
| `Tables.ReadThenWrite` | cloud-infrastructure/lambda/process_iot_data.py:26-27 | records with a distinct header and full-width data records are written back unchanged |
| `Bronze.Score` | cloud-infrastructure/lambda/process_iot_data.py:35-38 | a present text cell that parses to x scores x; a missing column, a `None` cell or unparseable text scores 0 |
| `Bronze.Partition` | cloud-infrastructure/lambda/process_iot_data.py:31-42 | the two sides' sizes add up to the input's; silver rows are not anomalies and anomaly rows are |
| `Bronze.PartitionIsStable` | cloud-infrastructure/lambda/process_iot_data.py:34-42 | each side holds exactly the rows of its class, in input order |
| `Bronze.PartitionIsPermutation` | cloud-infrastructure/lambda/process_iot_data.py:34-42 | together the two sides hold every input row exactly as often as the input does |
| `Bronze.RoutedByScore` | cloud-infrastructure/lambda/process_iot_data.py:39-42 | an input row is on the anomalies side exactly when its score is above 0.5, and on the silver side exactly when it is not |
| `Bronze.TieGoesToSilver` | cloud-infrastructure/lambda/process_iot_data.py:39-42 | scores 0.1, 0.9 and 0.5 send the first and third rows to silver and the second to anomalies |
| `Bronze.Handle` | cloud-infrastructure/lambda/process_iot_data.py:11-64 | a non-`.csv` key is a 200 no-op; no header raises `TypeError` with nothing written; on success the summary counts add up and name the derived keys, and exactly those two keys are written; a failure leaves at most the silver key written |
| `Bronze.PartitionFits` | cloud-infrastructure/lambda/process_iot_data.py:46-51 | every row can be written exactly when every row of both sides can |
| `Bronze.ProcessedIffAllRowsFit` | cloud-infrastructure/lambda/process_iot_data.py:44-64 | a `.csv` key is processed to the end exactly when there is a header and every row fits it |
| `Bronze.WritesBothPartitions` | cloud-infrastructure/lambda/process_iot_data.py:44-60 | on success both tables are written, even when empty, as the header followed by that side's rows in input order |
| `Bronze.SilverSurvivesAnomaliesFailure` | cloud-infrastructure/lambda/process_iot_data.py:44-51 | when the silver rows fit but some row does not, the silver table is written and `ValueError` escapes |
| `Bronze.DecodedBronzeIsProcessed` | cloud-infrastructure/lambda/process_iot_data.py:23-51 | a non-empty object whose records are no longer than its header is always processed |
| `Gold.ReadField` | cloud-infrastructure/lambda/process_silver_to_gold.py:55-56 | a missing column reads as 0; a text that parses to x reads as x; a `None` cell gives `TypeError`; an unparseable text gives `ValueError` |
| `Gold.ReadRow` | cloud-infrastructure/lambda/process_silver_to_gold.py:54-58 | a row contributes exactly when value and score both read as numbers, and then contributes those numbers; it raises exactly on a `None` value, or a numeric value and a `None` score; an unparseable value skips the row whatever the score |
| `Gold.DeviceOf` | cloud-infrastructure/lambda/process_silver_to_gold.py:43 | the row's `device_id` cell, `None` included, or `unknown` when the column is missing |
| `Gold.Aggregate` | cloud-infrastructure/lambda/process_silver_to_gold.py:42-69 | the loop raises exactly when some row raises on reading, and then with `TypeError` |
| `Gold.Include` | cloud-infrastructure/lambda/process_silver_to_gold.py:60-69 | counting a row adds one to the count, widens the bounds to cover the value, and keeps the tally consistent |
| `Gold.Find` | cloud-infrastructure/lambda/process_silver_to_gold.py:45 | the position of a device's entry, or the dictionary size exactly when the device is absent |
| `Gold.Register` | cloud-infrastructure/lambda/process_silver_to_gold.py:45-52 | a new device gets a fresh entry at the end; existing entries stay as they were |
| `Gold.Step` | cloud-infrastructure/lambda/process_silver_to_gold.py:42-69 | a row raises exactly when reading it raises, and then with `TypeError`; otherwise the keys are the old ones plus the row's device |
| `Gold.SkippedRowOnlyRegisters` | cloud-infrastructure/lambda/process_silver_to_gold.py:43-58 | a skipped row changes no tally, but its device still gets an entry |
| `Gold.IncludeSummarizes` | cloud-infrastructure/lambda/process_silver_to_gold.py:60-69 | counting a sample turns the statistics of some readings into the statistics of those readings plus the sample |
| `Gold.RegisterKeepsOrder` | cloud-infrastructure/lambda/process_silver_to_gold.py:45-52 | registering the next row's device keeps the dictionary's keys equal to the keys seen so far, in first-seen order |
| `Gold.StepKeepsGrouped` | cloud-infrastructure/lambda/process_silver_to_gold.py:42-69 | one loop iteration keeps the grouping invariant |
| `Gold.AggregateGroups` | cloud-infrastructure/lambda/process_silver_to_gold.py:40-69 | after the loop, the entries are exactly the distinct device keys in first-seen order, each summarizing its device's readable rows, and the counts add up to all readable rows |
| `Gold.SummaryDescribes` | cloud-infrastructure/lambda/process_silver_to_gold.py:79-92 | the gold row of a tally that summarizes some readings holds their number, sum over number as average, extremes, anomaly count, and anomaly count over number times 100 as percentage |
| `Gold.SummaryBounded` | cloud-infrastructure/lambda/process_silver_to_gold.py:81-82 | the average lies between the minimum and the maximum, and the anomaly percentage between 0 and 100 |
| `Gold.Emit` | cloud-infrastructure/lambda/process_silver_to_gold.py:79-92 | no more gold rows than entries, each for a device of the dictionary |
| `Gold.EmitKeepsEveryReading` | cloud-infrastructure/lambda/process_silver_to_gold.py:79-92 | the gold rows' readings add up to the dictionary's counts |
| `Gold.EmitKeepsOrder` | cloud-infrastructure/lambda/process_silver_to_gold.py:79-80 | gold rows come in the dictionary's first-seen order |
| `Gold.EmitCoversCounted` | cloud-infrastructure/lambda/process_silver_to_gold.py:79-80 | each gold row summarizes an entry with a positive count, and each such entry has its gold row |
| `Gold.GoldRowsDescribe` | cloud-infrastructure/lambda/process_silver_to_gold.py:42-92 | each gold row holds the number, average, extremes, anomaly count and percentage of its device's readable rows, and obeys the bounds |
| `Gold.GoldCoversDevices` | cloud-infrastructure/lambda/process_silver_to_gold.py:79-80 | every device with a readable row has a gold row |
| `Gold.GoldOrderAndTotal` | cloud-infrastructure/lambda/process_silver_to_gold.py:60-92 | gold rows are in first-seen device order, and their readings add up to the readable rows |
| `Gold.EntriesCountKeys` | cloud-infrastructure/lambda/process_silver_to_gold.py:104-111 | the dictionary has one entry per distinct device key, skipped-only devices included |
| `Gold.Handle` | cloud-infrastructure/lambda/process_silver_to_gold.py:15-120 | ignored keys and empty tables are 200 no-ops; 500 carries `TypeError` and writes nothing, and on an accepted non-empty table it happens exactly when some row raises, and otherwise the run succeeds; success answers 200 and writes only the gold key, derived from the silver key |
| `Gold.DoneWritesSummary` | cloud-infrastructure/lambda/process_silver_to_gold.py:42-113 | the written gold table is the reference summary of the rows, with distinct devices in first-seen order and no reading lost, and `devices_processed` is the number of distinct device keys |
| `Gold.SkippedDeviceCountsWithoutGoldRow` | cloud-infrastructure/lambda/process_silver_to_gold.py:104-111 | one row with an unparseable value gives `devices_processed` 1 and an empty gold table |
| `Pipeline.SilverKeyIsAccepted` | cloud-infrastructure/lambda/process_silver_to_gold.py:24-25 | the silver key derived from a `bronze/…csv` key passes the aggregator's prefix and extension test |
| `Pipeline.BlankNormalRowIsNotFlagged` | cloud-infrastructure/lambda/process_silver_to_gold.py:55-69 | a silver row, once written and read back, is never counted as an anomaly by the aggregator |
| `Pipeline.SilverReadsBack` | cloud-infrastructure/lambda/process_iot_data.py:44-47 | the silver table the classifier writes reads back as its silver rows, with `None` cells as empty text |
| `Pipeline.SilverHasNoAnomalies` | cloud-infrastructure/lambda/process_silver_to_gold.py:67-69 | the aggregator run on a silver table the classifier wrote reports 0 anomalies for every device |

## Left out

- S3 reads and writes, the boto3 client, the event's shape and the
  `KeyError`s a malformed event would raise. Only the first notification
  record is modelled. An object is given as its decoded table, and writes
  are returned as a key-to-table map.
- CSV quoting, escaping and text decoding. Tables are modelled as
  already-split records.
- Float parsing details: whitespace, exponents, `nan`, `inf`. The parser is
  a parameter; NaN and infinities are not representable in `real`.
- Gold.SummaryBounded: the bounds are facts about exact arithmetic; the
  float rounding of the running sum (`total_value += value`) and of the two
  quotients is not modelled, and Python's floats can break them (three
  readings of 0.1 average to 0.10000000000000002, above the maximum 0.1).
- Gold.SummaryDescribes: states the exact quotients; the `round(…, 3)` and
  `round(…, 2)` applied to the gold columns are not modelled.
- The gold table's header line, which the aggregator always writes first,
  is not modelled: a gold write is its list of summary rows.
- Gold rows are kept as typed rows rather than encoded text. In particular,
  a `None` device key and an empty-text device key are separate entries,
  although both would be written as the same empty cell.
- Logging, `print` and the JSON serialisation of response bodies. Bodies
  are modelled as records.
- The spread of possible storage failures: only the exceptions the
  transformation itself can raise are modelled.
- The aggregator's 500 path is stated only for `TypeError`, the one
  exception its transformation can raise.
- The `float('inf')` and `float('-inf')` initial bounds are the `Fresh`
  state of a tally; they never reach a gold row, because only devices with a
  positive count are written.

=== FILE: basics.dfy ===
/** Shared vocabulary of the two pipeline stages: optional values, the
    Python exceptions a stage can raise, and the anomaly threshold. */
module Basics {

  /** An optional value; `None` plays the role of a failed parse. */
  datatype Option<+T> = None | Some(value: T)

  /** The exception classes the handlers can raise while transforming a table.
      `TypeError` comes from `float(None)` or from writing a header with no
      column list; `ValueError` from writing a row with fields outside the
      header. */
  datatype Exception = TypeError | ValueError

  /** A computation that either returns a value or raises. */
  datatype Result<+T> = Ok(value: T) | Raised(error: Exception)

  /** Scores strictly above this value are anomalies, in both stages. */
  const Threshold: real := 0.5
}

=== FILE: bronze.dfy ===
/** The bronze-to-silver stage: every row of a bronze table goes either to
    the silver table or to the anomalies table, according to its anomaly
    score, and both tables are written under keys derived from the input
    key. */
module Bronze {
  import opened Basics
  import opened Tables
  import Keys

  /** The row's anomaly score: `float(row.get("anomaly_score", 0))`, where
      the bare `except` turns every failure (an unparseable text, or `None`
      from a short record) into 0. */
  function Score(parse: string -> Option<real>, row: Row): (score: real)
    ensures score != 0.0 ==>
              && ScoreColumn in row.fields
              && row.fields[ScoreColumn].Text?
              && parse(row.fields[ScoreColumn].text) == Some(score)
    ensures ScoreColumn in row.fields && row.fields[ScoreColumn].Text? && parse(row.fields[ScoreColumn].text).Some? ==>
              score == parse(row.fields[ScoreColumn].text).value
  {
    if ScoreColumn !in row.fields then 0.0
    else match row.fields[ScoreColumn]
      case Null => 0.0
      case Text(t) => (match parse(t) case Some(x) => x case None => 0.0)
  }

  /** Strictly above the threshold: a score of exactly 0.5 is normal. */
  predicate IsAnomaly(parse: string -> Option<real>, row: Row) {
    Score(parse, row) > Threshold
  }

  /** Reference definition of one side of the split: the rows whose
      classification is `anomalous`, in their original order. */
  function Select(parse: string -> Option<real>, rows: seq<Row>, anomalous: bool): seq<Row> {
    if rows == [] then []
    else (if IsAnomaly(parse, rows[0]) == anomalous then [rows[0]] else [])
         + Select(parse, rows[1..], anomalous)
  }

  /** The `for row in rows` loop: each row is appended to `anomalies_rows`
      or to `normal_rows`. */
  function Partition(parse: string -> Option<real>, rows: seq<Row>): (p: (seq<Row>, seq<Row>))
    ensures |p.0| + |p.1| == |rows|
    ensures forall i :: 0 <= i < |p.0| ==> !IsAnomaly(parse, p.0[i])
    ensures forall i :: 0 <= i < |p.1| ==> IsAnomaly(parse, p.1[i])
  {
    if rows == [] then ([], [])
    else
      var n := |rows| - 1;
      var prior := Partition(parse, rows[..n]);
      assert rows == rows[..n] + [rows[n]];
      if IsAnomaly(parse, rows[n]) then (prior.0, prior.1 + [rows[n]])
      else (prior.0 + [rows[n]], prior.1)
  }

  lemma {:induction false} SelectAppend(parse: string -> Option<real>, a: seq<Row>, b: seq<Row>, anomalous: bool)
    ensures Select(parse, a + b, anomalous) == Select(parse, a, anomalous) + Select(parse, b, anomalous)
    decreases |a|
  {
    if a != [] {
      assert (a + b)[1..] == a[1..] + b;
      SelectAppend(parse, a[1..], b, anomalous);
    } else {
      assert a + b == b;
    }
  }

  /** The loop keeps each side in input order: the silver rows are exactly
      the normal rows and the anomaly rows exactly the anomalous ones, each
      in the order they were read. */
  lemma {:induction false} PartitionIsStable(parse: string -> Option<real>, rows: seq<Row>)
    ensures Partition(parse, rows).0 == Select(parse, rows, false)
    ensures Partition(parse, rows).1 == Select(parse, rows, true)
    decreases |rows|
  {
    if rows != [] {
      var n := |rows| - 1;
      var last := rows[n];
      var init := rows[..n];
      PartitionIsStable(parse, init);
      SelectSingle(parse, last, false);
      SelectSingle(parse, last, true);
      SelectAppend(parse, init, [last], false);
      SelectAppend(parse, init, [last], true);
      assert rows == init + [last];
      var prior := Partition(parse, init);
      if IsAnomaly(parse, last) {
        assert Partition(parse, rows) == (prior.0, prior.1 + [last]);
        assert Select(parse, [last], false) == [];
      } else {
        assert Partition(parse, rows) == (prior.0 + [last], prior.1);
        assert Select(parse, [last], true) == [];
      }
    }
  }

  lemma {:induction false} SelectSingle(parse: string -> Option<real>, r: Row, anomalous: bool)
    ensures Select(parse, [r], anomalous) == if IsAnomaly(parse, r) == anomalous then [r] else []
  {
    assert [r][1..] == [];
  }

  lemma {:induction false} SelectSplitsMultiset(parse: string -> Option<real>, rows: seq<Row>)
    ensures multiset(Select(parse, rows, false)) + multiset(Select(parse, rows, true)) == multiset(rows)
    decreases |rows|
  {
    if rows != [] {
      var head := rows[0];
      var tail := rows[1..];
      SelectSplitsMultiset(parse, tail);
      assert rows == [head] + tail;
      assert multiset(rows) == multiset{head} + multiset(tail);
      if IsAnomaly(parse, head) {
        assert Select(parse, rows, true) == [head] + Select(parse, tail, true);
        assert Select(parse, rows, false) == [] + Select(parse, tail, false);
      } else {
        assert Select(parse, rows, false) == [head] + Select(parse, tail, false);
        assert Select(parse, rows, true) == [] + Select(parse, tail, true);
      }
    }
  }

  /** Every row lands in exactly one side: together the two sides hold each
      input row as many times as the input does. */
  lemma {:induction false} PartitionIsPermutation(parse: string -> Option<real>, rows: seq<Row>)
    ensures multiset(Partition(parse, rows).0) + multiset(Partition(parse, rows).1) == multiset(rows)
  {
    PartitionIsStable(parse, rows);
    SelectSplitsMultiset(parse, rows);
  }

  /** A row goes to the anomalies side if and only if its score is strictly
      above the threshold, and to the silver side otherwise. */
  lemma {:induction false} RoutedByScore(parse: string -> Option<real>, rows: seq<Row>, r: Row)
    requires r in rows
    ensures r in Partition(parse, rows).1 <==> Score(parse, r) > Threshold
    ensures r in Partition(parse, rows).0 <==> Score(parse, r) <= Threshold
  {
    var p := Partition(parse, rows);
    PartitionIsPermutation(parse, rows);
    assert r in multiset(p.0) + multiset(p.1);
  }

  datatype Summary = Summary(
    file: string,
    totalRows: nat,
    silverRows: nat,
    anomalyRows: nat,
    silverKey: string,
    anomaliesKey: string)

  /** `statusCode` and the (decoded) JSON body; an ignored key has no body. */
  datatype Response = Response(statusCode: int, body: Option<Summary>)

  /** The handler has no `try`: an exception leaves it with whatever was
      already written. `writes` maps each written key to the records
      written there, later writes replacing earlier ones. */
  datatype Outcome =
    | Returned(response: Response, writes: map<string, seq<Record>>)
    | Failed(error: Exception, writes: map<string, seq<Record>>)

  /** `lambda_handler` for one notification on `key`, whose object decodes
      to `table`. */
  function Handle(parse: string -> Option<real>, key: string, table: Table): (o: Outcome)
    ensures !Keys.EndsWith(key, Keys.CsvExtension) ==> o == Returned(Response(200, None), map[])
    ensures Keys.EndsWith(key, Keys.CsvExtension) && table.header.None? ==> o == Failed(TypeError, map[])
    ensures o.Returned? && o.response.body.Some? ==>
              var s := o.response.body.value;
              && o.response.statusCode == 200
              && s.file == key
              && s.totalRows == |table.rows|
              && s.silverRows + s.anomalyRows == s.totalRows
              && s.silverKey == Keys.SilverKey(key)
              && s.anomaliesKey == Keys.AnomaliesKey(key)
              && o.writes.Keys == {s.silverKey, s.anomaliesKey}
    ensures o.Failed? ==> o.writes.Keys <= {Keys.SilverKey(key)}
  {
    if !Keys.EndsWith(key, Keys.CsvExtension) then Returned(Response(200, None), map[])
    else
      var split := Partition(parse, table.rows);
      var normal := split.0;
      var anomalies := split.1;
      var silverKey := Keys.SilverKey(key);
      match Encode(table.header, normal)
      case Raised(e) => Failed(e, map[])
      case Ok(silver) =>
        var written := map[silverKey := silver];
        var anomaliesKey := Keys.AnomaliesKey(key);
        match Encode(table.header, anomalies)
        case Raised(e) => Failed(e, written)
        case Ok(flagged) =>
          var summary := Summary(key, |table.rows|, |normal|, |anomalies|, silverKey, anomaliesKey);
          Returned(Response(200, Some(summary)), written[anomaliesKey := flagged])
  }

  /** Every row can be written exactly when every row of both sides can. */
  lemma {:induction false} PartitionFits(parse: string -> Option<real>, header: seq<string>, rows: seq<Row>)
    ensures AllFit(header, rows) <==>
              AllFit(header, Partition(parse, rows).0) && AllFit(header, Partition(parse, rows).1)
    decreases |rows|
  {
    if rows != [] {
      var n := |rows| - 1;
      var prior := Partition(parse, rows[..n]);
      PartitionFits(parse, header, rows[..n]);
      assert rows == rows[..n] + [rows[n]];
      AllFitAppend(header, rows[..n], [rows[n]]);
      AllFitAppend(header, prior.0, [rows[n]]);
      AllFitAppend(header, prior.1, [rows[n]]);
    }
  }

  /** A `.csv` key is processed to the end exactly when the table has a
      header and every row can be written under it; otherwise the handler
      raises. */
  lemma {:induction false} ProcessedIffAllRowsFit(parse: string -> Option<real>, key: string, table: Table)
    requires Keys.EndsWith(key, Keys.CsvExtension)
    ensures Handle(parse, key, table).Returned? <==> table.header.Some? && AllFit(table.header.value, table.rows)
  {
    if table.header.Some? {
      PartitionFits(parse, table.header.value, table.rows);
    }
  }

  /** On success both tables are written, even when empty, each as the
      input header followed by its rows in input order; the anomalies table
      is written second, so it is the one kept when both keys coincide. */
  lemma {:induction false} WritesBothPartitions(parse: string -> Option<real>, key: string, table: Table)
    requires Keys.EndsWith(key, Keys.CsvExtension)
    requires Handle(parse, key, table).Returned?
    ensures var o := Handle(parse, key, table);
            var h := table.header.value;
            && o.writes[Keys.AnomaliesKey(key)] == [h] + Lines(h, Select(parse, table.rows, true))
            && (Keys.SilverKey(key) != Keys.AnomaliesKey(key) ==>
                  o.writes[Keys.SilverKey(key)] == [h] + Lines(h, Select(parse, table.rows, false)))
            && o.response.body.value.silverRows == |Select(parse, table.rows, false)|
            && o.response.body.value.anomalyRows == |Select(parse, table.rows, true)|
  {
    PartitionIsStable(parse, table.rows);
  }

  /** When every silver row can be written but some row cannot, that row
      is an anomaly: the silver table stays written and the exception
      escapes from the anomalies write. */
  lemma {:induction false} SilverSurvivesAnomaliesFailure(parse: string -> Option<real>, key: string, table: Table)
    requires Keys.EndsWith(key, Keys.CsvExtension) && table.header.Some?
    requires AllFit(table.header.value, Select(parse, table.rows, false))
    requires !AllFit(table.header.value, table.rows)
    ensures Handle(parse, key, table) == Failed(ValueError, map[Keys.SilverKey(key) := [table.header.value] + Lines(table.header.value, Select(parse, table.rows, false))])
  {
    var h := table.header.value;
    PartitionIsStable(parse, table.rows);
    PartitionFits(parse, h, table.rows);
  }

  /** A table read from a non-empty object whose records are no longer than
      its header is always processed: nothing raises. */
  lemma {:induction false} DecodedBronzeIsProcessed(parse: string -> Option<real>, key: string, records: seq<Record>)
    requires Keys.EndsWith(key, Keys.CsvExtension)
    requires records != []
    requires forall i :: 1 <= i < |records| ==> |records[i]| <= |records[0]|
    ensures Handle(parse, key, Decode(records)).Returned?
  {
    var t := Decode(records);
    var tail := records[1..];
    ProcessedIffAllRowsFit(parse, key, t);
    assert forall i :: 0 <= i < |tail| ==> |tail[i]| <= |records[0]| by {
      forall i | 0 <= i < |tail| ensures |tail[i]| <= |records[0]| {
        assert tail[i] == records[i + 1];
      }
    }
  }

  /** Scenario: scores 0.1, 0.9 and 0.5 send the first and third rows to
      silver and the second to anomalies. */
  lemma {:induction false} TieGoesToSilver(parse: string -> Option<real>)
    requires parse("0.1") == Some(0.1) && parse("0.9") == Some(0.9) && parse("0.5") == Some(0.5)
    ensures var r1 := Row(map[ScoreColumn := Text("0.1")], []);
            var r2 := Row(map[ScoreColumn := Text("0.9")], []);
            var r3 := Row(map[ScoreColumn := Text("0.5")], []);
            Partition(parse, [r1, r2, r3]) == ([r1, r3], [r2])
  {
    var r1 := Row(map[ScoreColumn := Text("0.1")], []);
    var r2 := Row(map[ScoreColumn := Text("0.9")], []);
    var r3 := Row(map[ScoreColumn := Text("0.5")], []);
    assert Score(parse, r1) == 0.1 && Score(parse, r2) == 0.9 && Score(parse, r3) == 0.5;
    assert [r1, r2, r3][..2] == [r1, r2];
    assert [r1, r2][..1] == [r1];
    assert [r1][..0] == [];
    var none: seq<Row> := [];
    assert none + [r1] == [r1] && none + [r2] == [r2] && [r1] + [r3] == [r1, r3];
    assert Partition(parse, [r1]) == ([r1], []);
    assert Partition(parse, [r1, r2]) == ([r1], [r2]);
  }
}

=== FILE: gold.dfy ===
/** The silver-to-gold stage: rows of a silver table are grouped by device,
    in the order devices are first seen, and each device with at least one
    readable row yields one summary row of the gold table. */
module Gold {
  import opened Basics
  import opened Tables
  import Keys

  const UnknownDevice := "unknown"
  const DoneMessage := "Gold procesado correctamente"

  /** The outcome of `float(row.get(column, 0))`: a number, a `ValueError`
      from unparseable text, or a `TypeError` from a `None` cell. A column the
      row lacks reads as the default `0`. */
  datatype Field = Number(x: real) | Unparseable | NullCell

  function ReadField(parse: string -> Option<real>, row: Row, column: string): (f: Field)
    ensures column !in row.fields ==> f == Number(0.0)
    ensures f.NullCell? <==> column in row.fields && row.fields[column] == Null
    ensures f.Unparseable? <==> column in row.fields && row.fields[column].Text? && parse(row.fields[column].text).None?
    ensures column in row.fields && row.fields[column].Text? && parse(row.fields[column].text).Some? ==>
              f == Number(parse(row.fields[column].text).value)
  {
    if column !in row.fields then Number(0.0)
    else match row.fields[column]
      case Null => NullCell
      case Text(t) => (match parse(t) case Some(x) => Number(x) case None => Unparseable)
  }

  /** One readable row's contribution. */
  datatype Sample = Sample(value: real, score: real)

  /** What the `try` block makes of a row: `value` is read first, and a
      `ValueError` skips the row before `anomaly_score` is read; a
      `TypeError` is not caught by `except ValueError` and escapes. */
  datatype Reading = Contributes(sample: Sample) | Skipped | Fails

  function ReadRow(parse: string -> Option<real>, row: Row): (r: Reading)
    ensures r.Contributes? <==>
              ReadField(parse, row, ValueColumn).Number? && ReadField(parse, row, ScoreColumn).Number?
    ensures r.Contributes? ==>
              && ReadField(parse, row, ValueColumn) == Number(r.sample.value)
              && ReadField(parse, row, ScoreColumn) == Number(r.sample.score)
    ensures r.Fails? <==>
              || (ValueColumn in row.fields && row.fields[ValueColumn] == Null)
              || (ReadField(parse, row, ValueColumn).Number? && ScoreColumn in row.fields && row.fields[ScoreColumn] == Null)
    ensures ReadField(parse, row, ValueColumn).Unparseable? ==> r.Skipped?
  {
    match ReadField(parse, row, ValueColumn)
    case NullCell => Fails
    case Unparseable => Skipped
    case Number(v) =>
      match ReadField(parse, row, ScoreColumn)
      case NullCell => Fails
      case Unparseable => Skipped
      case Number(s) => Contributes(Sample(v, s))
  }

  /** `row.get('device_id', 'unknown')`; a `None` cell is a key of its own. */
  function DeviceOf(row: Row): (d: Cell)
    ensures DeviceColumn !in row.fields ==> d == Text(UnknownDevice)
    ensures DeviceColumn in row.fields ==> d == row.fields[DeviceColumn]
  {
    if DeviceColumn in row.fields then row.fields[DeviceColumn] else Text(UnknownDevice)
  }

  /** A device's running statistics. `Fresh` is the record created on first
      sight (count 0, sum 0.0, min +inf, max -inf, no anomalies); the first
      readable row turns it into a `Tally`, setting both bounds. */
  datatype Stats = Fresh | Tally(count: nat, total: real, lo: real, hi: real, anomalies: nat)

  function Count(s: Stats): nat {
    if s.Fresh? then 0 else s.count
  }

  /** The relations between a tally's fields that any run of `Include`
      keeps. */
  predicate Consistent(s: Stats) {
    s.Tally? ==> s.count >= 1 && s.lo <= s.hi && s.anomalies <= s.count
  }

  function Flag(score: real): nat {
    if score > Threshold then 1 else 0
  }

  /** The statistics update for one readable row. */
  function Include(s: Stats, x: Sample): (t: Stats)
    ensures t.Tally? && Count(t) == Count(s) + 1
    ensures t.lo <= x.value <= t.hi
    ensures s.Tally? ==> t.lo <= s.lo && s.hi <= t.hi
    ensures Consistent(s) ==> Consistent(t)
  {
    match s
    case Fresh => Tally(1, x.value, x.value, x.value, Flag(x.score))
    case Tally(c, total, lo, hi, a) =>
      var lo' := if x.value < lo then x.value else lo;
      var hi' := if x.value > hi then x.value else hi;
      Tally(c + 1, total + x.value, lo', hi', a + Flag(x.score))
  }

  /** One entry of the insertion-ordered `device_stats` dictionary. */
  datatype Entry = Entry(device: Cell, stats: Stats)

  function Devices(entries: seq<Entry>): (ds: seq<Cell>)
    ensures |ds| == |entries|
  {
    seq(|entries|, j requires 0 <= j < |entries| => entries[j].device)
  }

  /** The position of `d` in the dictionary, or its size when absent. */
  function Find(entries: seq<Entry>, d: Cell): (i: nat)
    ensures i <= |entries|
    ensures i < |entries| ==> entries[i].device == d
    ensures i == |entries| <==> d !in Devices(entries)
  {
    if entries == [] then 0
    else
      assert Devices(entries) == [entries[0].device] + Devices(entries[1..]);
      if entries[0].device == d then 0
      else 1 + Find(entries[1..], d)
  }

  /** `device_stats[device_id] = {...}` for a device not seen before: a
      fresh entry at the end, every existing entry untouched. */
  function Register(entries: seq<Entry>, d: Cell): (r: seq<Entry>)
    ensures d in Devices(r)
    ensures Devices(r) == if d in Devices(entries) then Devices(entries) else Devices(entries) + [d]
    ensures |entries| <= |r| && r[..|entries|] == entries
    ensures |r| > |entries| ==> r[|entries|] == Entry(d, Fresh)
  {
    if Find(entries, d) == |entries| then
      var r := entries + [Entry(d, Fresh)];
      assert Devices(r) == Devices(entries) + [d];
      r
    else entries
  }

  /** One iteration of the grouping loop: the device's entry is created
      first, then the row is read, then counted. */
  function Step(parse: string -> Option<real>, entries: seq<Entry>, row: Row): (r: Result<seq<Entry>>)
    ensures r.Raised? <==> ReadRow(parse, row).Fails?
    ensures r.Raised? ==> r.error == TypeError
    ensures r.Ok? ==> Devices(r.value) == Devices(Register(entries, DeviceOf(row)))
  {
    var d := DeviceOf(row);
    var registered := Register(entries, d);
    var i := Find(registered, d);
    match ReadRow(parse, row)
    case Fails => Raised(TypeError)
    case Skipped => Ok(registered)
    case Contributes(x) => Ok(registered[i := Entry(d, Include(registered[i].stats, x))])
  }

  /** The grouping loop over all rows; the first `TypeError` ends it. It
      raises exactly when some row raises `TypeError` when read: a `None`
      value, or a value that reads as a number followed by a `None` score. */
  function Aggregate(parse: string -> Option<real>, rows: seq<Row>): (r: Result<seq<Entry>>)
    ensures r.Raised? <==> SomeRowFails(parse, rows)
    ensures r.Raised? ==> r.error == TypeError
  {
    if rows == [] then Ok([])
    else
      SomeRowFailsStep(parse, rows);
      match Aggregate(parse, rows[..|rows| - 1])
      case Raised(e) => Raised(e)
      case Ok(entries) => Step(parse, entries, rows[|rows| - 1])
  }

  // ---------------------------------------------------------------------
  // Reference definitions, stated directly over the rows.

  /** The device key of every row, in row order. */
  function Keyed(rows: seq<Row>): (ks: seq<Cell>)
    ensures |ks| == |rows|
  {
    seq(|rows|, i requires 0 <= i < |rows| => DeviceOf(rows[i]))
  }

  /** The position where `d` first occurs, or `|keys|` when it never does. */
  function FirstIndex(keys: seq<Cell>, d: Cell): (i: nat)
    ensures i <= |keys|
    ensures i < |keys| <==> d in keys
    ensures i < |keys| ==> keys[i] == d
  {
    if keys == [] then 0
    else if keys[0] == d then 0
    else 1 + FirstIndex(keys[1..], d)
  }

  /** The readable rows of device `d`, in row order. */
  function Contributions(parse: string -> Option<real>, rows: seq<Row>, d: Cell): seq<Sample> {
    if rows == [] then []
    else
      var n := |rows| - 1;
      var r := ReadRow(parse, rows[n]);
      Contributions(parse, rows[..n], d)
        + (if DeviceOf(rows[n]) == d && r.Contributes? then [r.sample] else [])
  }

  /** The readable rows of all devices. */
  function Readable(parse: string -> Option<real>, rows: seq<Row>): seq<Sample> {
    if rows == [] then []
    else
      var n := |rows| - 1;
      var r := ReadRow(parse, rows[n]);
      Readable(parse, rows[..n]) + (if r.Contributes? then [r.sample] else [])
  }

  function SumValues(xs: seq<Sample>): real {
    if xs == [] then 0.0 else SumValues(xs[..|xs| - 1]) + xs[|xs| - 1].value
  }

  function Flagged(xs: seq<Sample>): nat {
    if xs == [] then 0 else Flagged(xs[..|xs| - 1]) + Flag(xs[|xs| - 1].score)
  }

  /** `s` holds the statistics of exactly the samples `xs`: their number,
      sum and anomaly count, and a minimum and maximum that bound every
      sample and are attained by one. */
  ghost predicate Summarizes(s: Stats, xs: seq<Sample>) {
    && Count(s) == |xs|
    && (s.Tally? ==>
          && s.total == SumValues(xs)
          && s.anomalies == Flagged(xs)
          && (forall k :: 0 <= k < |xs| ==> s.lo <= xs[k].value <= s.hi)
          && (exists k :: 0 <= k < |xs| && xs[k].value == s.lo)
          && (exists k :: 0 <= k < |xs| && xs[k].value == s.hi))
  }

  function SumCounts(entries: seq<Entry>): nat {
    if entries == [] then 0
    else SumCounts(entries[..|entries| - 1]) + Count(entries[|entries| - 1].stats)
  }

  /** `ds` holds exactly the keys of `keys`. */
  ghost predicate KeysMatch(keys: seq<Cell>, ds: seq<Cell>) {
    forall x :: x in ds <==> x in keys
  }

  /** `ds` lists keys in increasing order of their first occurrence in
      `keys`, which also makes them distinct. */
  ghost predicate FirstSeenOrder(keys: seq<Cell>, ds: seq<Cell>) {
    forall i, j :: 0 <= i < j < |ds| ==> FirstIndex(keys, ds[i]) < FirstIndex(keys, ds[j])
  }

  ghost predicate DistinctDevices(entries: seq<Entry>) {
    forall a, b :: 0 <= a < b < |entries| ==> entries[a].device != entries[b].device
  }

  predicate AllConsistent(entries: seq<Entry>) {
    forall j :: 0 <= j < |entries| ==> Consistent(entries[j].stats)
  }

  ghost predicate AllSummarize(parse: string -> Option<real>, rows: seq<Row>, entries: seq<Entry>) {
    forall j :: 0 <= j < |entries| ==> Summarizes(entries[j].stats, Contributions(parse, rows, entries[j].device))
  }

  /** What the grouping loop maintains after reading `rows`: one entry per
      distinct device key, in first-seen order, each summarizing that
      device's readable rows, with the counts adding up to the readable rows
      overall. */
  ghost predicate Grouped(parse: string -> Option<real>, rows: seq<Row>, entries: seq<Entry>) {
    && KeysMatch(Keyed(rows), Devices(entries))
    && FirstSeenOrder(Keyed(rows), Devices(entries))
    && AllConsistent(entries)
    && AllSummarize(parse, rows, entries)
    && SumCounts(entries) == |Readable(parse, rows)|
  }

  // ---------------------------------------------------------------------
  // Lemmas about the grouping loop.

  lemma {:induction false} FirstIndexAppend(keys: seq<Cell>, d: Cell, x: Cell)
    ensures x in keys ==> FirstIndex(keys + [d], x) == FirstIndex(keys, x)
    ensures x !in keys && x == d ==> FirstIndex(keys + [d], x) == |keys|
    decreases |keys|
  {
    if keys != [] {
      assert (keys + [d])[1..] == keys[1..] + [d];
      FirstIndexAppend(keys[1..], d, x);
    }
  }

  lemma {:induction false} ContributorsAreKeyed(parse: string -> Option<real>, rows: seq<Row>, d: Cell)
    requires d !in Keyed(rows)
    ensures Contributions(parse, rows, d) == []
    decreases |rows|
  {
    if rows != [] {
      var n := |rows| - 1;
      assert Keyed(rows[..n]) == Keyed(rows)[..n];
      assert Keyed(rows)[n] == DeviceOf(rows[n]);
      ContributorsAreKeyed(parse, rows[..n], d);
    }
  }

  lemma {:induction false} IncludeSummarizes(s: Stats, xs: seq<Sample>, x: Sample)
    requires Summarizes(s, xs)
    ensures Summarizes(Include(s, x), xs + [x])
  {
    var ys := xs + [x];
    assert ys[..|ys| - 1] == xs;
    var t := Include(s, x);
    assert ys[|xs|] == x;
    if s.Fresh? {
      assert xs == [];
      assert ys == [x];
      assert SumValues([]) == 0.0;
      assert t == Tally(1, x.value, x.value, x.value, Flag(x.score));
    } else {
      forall k | 0 <= k < |ys|
        ensures t.lo <= ys[k].value <= t.hi
      {
        if k < |xs| {
          assert ys[k] == xs[k];
        }
      }
      var a :| 0 <= a < |xs| && xs[a].value == s.lo;
      var b :| 0 <= b < |xs| && xs[b].value == s.hi;
      assert ys[a] == xs[a] && ys[b] == xs[b];
      if x.value < s.lo {
        assert ys[|xs|].value == t.lo;
      } else {
        assert ys[a].value == t.lo;
      }
      if x.value > s.hi {
        assert ys[|xs|].value == t.hi;
      } else {
        assert ys[b].value == t.hi;
      }
    }
  }

  lemma {:induction false} SumCountsUpdate(entries: seq<Entry>, i: nat, e: Entry)
    requires i < |entries|
    ensures SumCounts(entries[i := e]) + Count(entries[i].stats) == SumCounts(entries) + Count(e.stats)
    decreases |entries|
  {
    var n := |entries| - 1;
    var updated := entries[i := e];
    assert updated[..n] == if i < n then entries[..n][i := e] else entries[..n];
    if i < n {
      SumCountsUpdate(entries[..n], i, e);
    }
  }

  lemma {:induction false} ReadableStep(parse: string -> Option<real>, rows: seq<Row>, d: Cell)
    requires rows != []
    ensures var n := |rows| - 1;
            var r := ReadRow(parse, rows[n]);
            && Readable(parse, rows) == Readable(parse, rows[..n]) + (if r.Contributes? then [r.sample] else [])
            && Contributions(parse, rows, d) == Contributions(parse, rows[..n], d)
                 + (if DeviceOf(rows[n]) == d && r.Contributes? then [r.sample] else [])
            && Keyed(rows) == Keyed(rows[..n]) + [DeviceOf(rows[n])]
  {
  }

  /** Registering the next row's device keeps the dictionary in first-seen
      order of the keys read so far. */
  lemma {:induction false} RegisterKeepsOrder(keys: seq<Cell>, ds: seq<Cell>, d: Cell)
    requires KeysMatch(keys, ds) && FirstSeenOrder(keys, ds)
    ensures var ds' := if d in ds then ds else ds + [d];
            KeysMatch(keys + [d], ds') && FirstSeenOrder(keys + [d], ds')
  {
    var ds' := if d in ds then ds else ds + [d];
    forall a, b | 0 <= a < b < |ds'|
      ensures FirstIndex(keys + [d], ds'[a]) < FirstIndex(keys + [d], ds'[b])
    {
      assert ds'[a] == ds[a];
      FirstIndexAppend(keys, d, ds'[a]);
      FirstIndexAppend(keys, d, ds'[b]);
      if b < |ds| {
        assert ds'[b] == ds[b];
      }
    }
  }

  lemma {:induction false} OrderedIsDistinct(keys: seq<Cell>, entries: seq<Entry>)
    requires FirstSeenOrder(keys, Devices(entries))
    ensures DistinctDevices(entries)
  {
    forall a, b | 0 <= a < b < |entries|
      ensures entries[a].device != entries[b].device
    {
      assert Devices(entries)[a] == entries[a].device;
      assert Devices(entries)[b] == entries[b].device;
    }
  }

  /** Registering a device creates an entry with nothing counted, which
      summarizes the device's (empty) readable rows so far. */
  lemma {:induction false} RegisterKeepsSummaries(parse: string -> Option<real>, rows: seq<Row>, entries: seq<Entry>, d: Cell)
    requires KeysMatch(Keyed(rows), Devices(entries))
    requires AllConsistent(entries) && AllSummarize(parse, rows, entries)
    ensures AllConsistent(Register(entries, d)) && AllSummarize(parse, rows, Register(entries, d))
    ensures SumCounts(Register(entries, d)) == SumCounts(entries)
  {
    var registered := Register(entries, d);
    if |registered| > |entries| {
      assert d !in Keyed(rows);
      ContributorsAreKeyed(parse, rows, d);
      assert registered[..|registered| - 1] == entries;
      forall j | 0 <= j < |registered|
        ensures Summarizes(registered[j].stats, Contributions(parse, rows, registered[j].device))
        ensures Consistent(registered[j].stats)
      {
        if j < |entries| {
          assert registered[j] == entries[j];
        }
      }
    }
  }

  /** Counting the row (or skipping it) keeps every entry summarizing its
      device's readable rows, now including the new row. */
  lemma {:induction false} CountKeepsSummaries(parse: string -> Option<real>, rows: seq<Row>, registered: seq<Entry>)
    requires rows != []
    requires var n := |rows| - 1;
             && DeviceOf(rows[n]) in Devices(registered)
             && DistinctDevices(registered)
             && AllConsistent(registered) && AllSummarize(parse, rows[..n], registered)
             && SumCounts(registered) == |Readable(parse, rows[..n])|
    requires !ReadRow(parse, rows[|rows| - 1]).Fails?
    ensures var n := |rows| - 1;
            var out := Step(parse, registered, rows[n]).value;
            && Devices(out) == Devices(registered)
            && AllConsistent(out) && AllSummarize(parse, rows, out)
            && SumCounts(out) == |Readable(parse, rows)|
  {
    var n := |rows| - 1;
    var row := rows[n];
    var d := DeviceOf(row);
    var reading := ReadRow(parse, row);
    assert Register(registered, d) == registered;
    var i := Find(registered, d);
    var out := Step(parse, registered, row).value;
    forall x
      ensures Contributions(parse, rows, x) == Contributions(parse, rows[..n], x)
                + (if d == x && reading.Contributes? then [reading.sample] else [])
      ensures Readable(parse, rows) == Readable(parse, rows[..n])
                + (if reading.Contributes? then [reading.sample] else [])
    {
      ReadableStep(parse, rows, x);
    }
    if reading.Contributes? {
      var e := Entry(d, Include(registered[i].stats, reading.sample));
      assert out == registered[i := e];
      assert Devices(out) == Devices(registered);
      forall j | 0 <= j < |out|
        ensures Summarizes(out[j].stats, Contributions(parse, rows, out[j].device))
        ensures Consistent(out[j].stats)
      {
        if j == i {
          IncludeSummarizes(registered[i].stats, Contributions(parse, rows[..n], d), reading.sample);
        } else {
          assert out[j] == registered[j];
          assert registered[j].device != d;
          assert Contributions(parse, rows, out[j].device) == Contributions(parse, rows[..n], out[j].device) + [];
          assert Contributions(parse, rows[..n], out[j].device) + [] == Contributions(parse, rows[..n], out[j].device);
        }
      }
      SumCountsUpdate(registered, i, e);
    } else {
      assert out == registered;
      forall j | 0 <= j < |out|
        ensures Summarizes(out[j].stats, Contributions(parse, rows, out[j].device))
      {
        var c := Contributions(parse, rows[..n], out[j].device);
        assert c + [] == c;
      }
    }
  }

  /** One loop iteration keeps the grouping invariant. */
  lemma {:induction false} StepKeepsGrouped(parse: string -> Option<real>, rows: seq<Row>, entries: seq<Entry>)
    requires rows != []
    requires Grouped(parse, rows[..|rows| - 1], entries)
    requires Step(parse, entries, rows[|rows| - 1]).Ok?
    ensures Grouped(parse, rows, Step(parse, entries, rows[|rows| - 1]).value)
  {
    var n := |rows| - 1;
    var prior := rows[..n];
    var d := DeviceOf(rows[n]);
    var registered := Register(entries, d);
    var out := Step(parse, entries, rows[n]).value;
    ReadableStep(parse, rows, d);
    RegisterKeepsOrder(Keyed(prior), Devices(entries), d);
    assert Devices(out) == Devices(registered);
    OrderedIsDistinct(Keyed(rows), registered);
    RegisterKeepsSummaries(parse, prior, entries, d);
    assert Step(parse, entries, rows[n]) == Step(parse, registered, rows[n]);
    CountKeepsSummaries(parse, rows, registered);
  }

  /** The grouping loop establishes the invariant whenever no row raises. */
  lemma {:induction false} AggregateGroups(parse: string -> Option<real>, rows: seq<Row>)
    requires Aggregate(parse, rows).Ok?
    ensures Grouped(parse, rows, Aggregate(parse, rows).value)
    decreases |rows|
  {
    if rows == [] {
      assert Aggregate(parse, rows).value == [];
    } else {
      var n := |rows| - 1;
      AggregateGroups(parse, rows[..n]);
      StepKeepsGrouped(parse, rows, Aggregate(parse, rows[..n]).value);
    }
  }

  /** Some row of `rows` raises `TypeError` when read. */
  ghost predicate SomeRowFails(parse: string -> Option<real>, rows: seq<Row>) {
    exists i :: 0 <= i < |rows| && ReadRow(parse, rows[i]).Fails?
  }

  lemma {:induction false} SomeRowFailsStep(parse: string -> Option<real>, rows: seq<Row>)
    requires rows != []
    ensures SomeRowFails(parse, rows) <==>
              SomeRowFails(parse, rows[..|rows| - 1]) || ReadRow(parse, rows[|rows| - 1]).Fails?
  {
    var n := |rows| - 1;
    var prior := rows[..n];
    if SomeRowFails(parse, prior) {
      var i :| 0 <= i < n && ReadRow(parse, prior[i]).Fails?;
      assert rows[i] == prior[i];
    }
    if SomeRowFails(parse, rows) {
      var i :| 0 <= i < |rows| && ReadRow(parse, rows[i]).Fails?;
      if i < n {
        assert prior[i] == rows[i];
      }
    }
  }

  // ---------------------------------------------------------------------
  // Gold rows.

  /** One gold row, before the source's rounding of the real-valued
      columns. */
  datatype GoldRow = GoldRow(
    device: Cell,
    totalReadings: nat,
    avgValue: real,
    minValue: real,
    maxValue: real,
    anomalyCount: nat,
    anomalyPercentage: real)

  /** The bounds every gold row obeys. */
  ghost predicate Bounded(g: GoldRow) {
    && g.totalReadings >= 1
    && g.minValue <= g.avgValue <= g.maxValue
    && g.anomalyCount <= g.totalReadings
    && 0.0 <= g.anomalyPercentage <= 100.0
  }

  /** Dividing by a positive count keeps a value between its bounds. */
  lemma {:induction false} DivisionBounds(lo: real, total: real, hi: real, c: real)
    requires c > 0.0 && c * lo <= total <= c * hi
    ensures lo <= total / c <= hi
  {
    var q := total / c;
    assert q * c == total;
    assert (q - lo) * c == total - lo * c;
    assert (hi - q) * c == hi * c - total;
  }

  /** The gold row of one dictionary entry. */
  function SummaryOf(e: Entry): (g: GoldRow)
    requires Count(e.stats) > 0
    ensures g.device == e.device && g.totalReadings == Count(e.stats)
    ensures g.minValue == e.stats.lo && g.maxValue == e.stats.hi && g.anomalyCount == e.stats.anomalies
  {
    var s := e.stats;
    var c := s.count as real;
    GoldRow(e.device, s.count, s.total / c, s.lo, s.hi, s.anomalies, (s.anomalies as real / c) * 100.0)
  }

  /** A sum of values that all lie between `lo` and `hi` lies between
      `|xs| * lo` and `|xs| * hi`. */
  lemma {:induction false} SumValuesBounds(xs: seq<Sample>, lo: real, hi: real)
    requires forall k :: 0 <= k < |xs| ==> lo <= xs[k].value <= hi
    ensures (|xs| as real) * lo <= SumValues(xs) <= (|xs| as real) * hi
    decreases |xs|
  {
    if xs != [] {
      var m := |xs| - 1;
      SumValuesBounds(xs[..m], lo, hi);
      assert (|xs| as real) * lo == (m as real) * lo + lo;
      assert (|xs| as real) * hi == (m as real) * hi + hi;
    }
  }

  /** The average of a device's readings lies between their extremes. */
  lemma {:induction false} AverageBetweenExtremes(e: Entry, xs: seq<Sample>)
    requires Count(e.stats) > 0 && Summarizes(e.stats, xs)
    ensures e.stats.lo <= SummaryOf(e).avgValue <= e.stats.hi
  {
    var s := e.stats;
    SumValuesBounds(xs, s.lo, s.hi);
    DivisionBounds(s.lo, s.total, s.hi, s.count as real);
  }

  /** The anomaly percentage lies between 0 and 100. */
  lemma {:induction false} PercentageInRange(e: Entry)
    requires Count(e.stats) > 0 && Consistent(e.stats)
    ensures 0.0 <= SummaryOf(e).anomalyPercentage <= 100.0
  {
    var s := e.stats;
    DivisionBounds(0.0, s.anomalies as real, 1.0, s.count as real);
  }

  /** A gold row summarizing a device's readings obeys the bounds: the
      average lies between the minimum and the maximum, and the anomaly
      percentage between 0 and 100. */
  lemma {:induction false} SummaryBounded(e: Entry, xs: seq<Sample>)
    requires Count(e.stats) > 0 && Consistent(e.stats) && Summarizes(e.stats, xs)
    ensures Bounded(SummaryOf(e))
  {
    AverageBetweenExtremes(e, xs);
    PercentageInRange(e);
  }

  /** The emission loop: one gold row per entry whose count is positive, in
      dictionary order. */
  function Emit(entries: seq<Entry>): (gold: seq<GoldRow>)
    ensures |gold| <= |entries|
    ensures forall k :: 0 <= k < |gold| ==> gold[k].device in Devices(entries)
  {
    if entries == [] then []
    else
      var n := |entries| - 1;
      var e := entries[n];
      var prior := Emit(entries[..n]);
      assert Devices(entries) == Devices(entries[..n]) + [e.device];
      prior + (if Count(e.stats) > 0 then [SummaryOf(e)] else [])
  }

  function SumReadings(gold: seq<GoldRow>): nat {
    if gold == [] then 0 else SumReadings(gold[..|gold| - 1]) + gold[|gold| - 1].totalReadings
  }

  lemma {:induction false} SumReadingsAppend(a: seq<GoldRow>, b: seq<GoldRow>)
    ensures SumReadings(a + b) == SumReadings(a) + SumReadings(b)
    decreases |b|
  {
    if b != [] {
      assert (a + b)[..|a + b| - 1] == a + b[..|b| - 1];
      SumReadingsAppend(a, b[..|b| - 1]);
    } else {
      assert a + b == a;
    }
  }

  /** Dropping the entries with no readable row loses no reading. */
  lemma {:induction false} EmitKeepsEveryReading(entries: seq<Entry>)
    ensures SumReadings(Emit(entries)) == SumCounts(entries)
    decreases |entries|
  {
    if entries != [] {
      var n := |entries| - 1;
      var e := entries[n];
      EmitKeepsEveryReading(entries[..n]);
      var tail := if Count(e.stats) > 0 then [SummaryOf(e)] else [];
      SumReadingsAppend(Emit(entries[..n]), tail);
      if Count(e.stats) > 0 {
        assert SumReadings(tail) == SumReadings([]) + Count(e.stats) by {
          assert tail[..0] == [];
        }
      }
    }
  }

  /** Gold rows whose devices come in increasing order of first
      occurrence in `keys`. */
  ghost predicate RowsInOrder(keys: seq<Cell>, gold: seq<GoldRow>) {
    forall k, l :: 0 <= k < l < |gold| ==> FirstIndex(keys, gold[k].device) < FirstIndex(keys, gold[l].device)
  }

  /** A device registered before the last entry ranks below it. */
  lemma {:induction false} RankBelowLast(keys: seq<Cell>, entries: seq<Entry>, x: Cell)
    requires entries != [] && FirstSeenOrder(keys, Devices(entries))
    requires x in Devices(entries[..|entries| - 1])
    ensures FirstIndex(keys, x) < FirstIndex(keys, entries[|entries| - 1].device)
  {
    var n := |entries| - 1;
    var j :| 0 <= j < n && Devices(entries[..n])[j] == x;
    assert Devices(entries)[j] == x;
    assert Devices(entries)[n] == entries[n].device;
  }

  /** Emission keeps the dictionary's order: gold rows come in the order
      their devices were first seen. */
  lemma {:induction false} EmitKeepsOrder(keys: seq<Cell>, entries: seq<Entry>)
    requires FirstSeenOrder(keys, Devices(entries))
    ensures RowsInOrder(keys, Emit(entries))
    decreases |entries|
  {
    if entries != [] {
      var n := |entries| - 1;
      var e := entries[n];
      var prior := Emit(entries[..n]);
      assert Devices(entries[..n]) == Devices(entries)[..n];
      EmitKeepsOrder(keys, entries[..n]);
      var gold := Emit(entries);
      assert gold == prior + (if Count(e.stats) > 0 then [SummaryOf(e)] else []);
      forall k, l | 0 <= k < l < |gold|
        ensures FirstIndex(keys, gold[k].device) < FirstIndex(keys, gold[l].device)
      {
        assert gold[k] == prior[k];
        if l == |prior| {
          assert gold[l].device == e.device;
          RankBelowLast(keys, entries, prior[k].device);
        } else {
          assert gold[l] == prior[l];
          assert FirstIndex(keys, Emit(entries[..n])[k].device) < FirstIndex(keys, Emit(entries[..n])[l].device);
        }
      }
    }
  }

  /** Every gold row summarizes an entry with a positive count. */
  ghost predicate FromCounted(entries: seq<Entry>, gold: seq<GoldRow>) {
    forall k :: 0 <= k < |gold| ==>
      exists j :: 0 <= j < |entries| && Count(entries[j].stats) > 0 && gold[k] == SummaryOf(entries[j])
  }

  /** Every entry with a positive count has its gold row. */
  ghost predicate CoversCounted(entries: seq<Entry>, gold: seq<GoldRow>) {
    forall j :: 0 <= j < |entries| && Count(entries[j].stats) > 0 ==> SummaryOf(entries[j]) in gold
  }

  /** Each gold row is the summary of an entry with a positive count, and
      every such entry has its gold row. */
  lemma {:induction false} EmitCoversCounted(entries: seq<Entry>)
    ensures FromCounted(entries, Emit(entries)) && CoversCounted(entries, Emit(entries))
    decreases |entries|
  {
    if entries != [] {
      var n := |entries| - 1;
      EmitCoversCounted(entries[..n]);
      var prior := Emit(entries[..n]);
      var gold := Emit(entries);
      forall k | 0 <= k < |gold|
        ensures exists j :: 0 <= j < |entries| && Count(entries[j].stats) > 0 && gold[k] == SummaryOf(entries[j])
      {
        if k < |prior| {
          assert gold[k] == prior[k];
          var j :| 0 <= j < n && Count(entries[..n][j].stats) > 0 && prior[k] == SummaryOf(entries[..n][j]);
          assert entries[j] == entries[..n][j];
        } else {
          assert gold[k] == SummaryOf(entries[n]);
        }
      }
      forall j | 0 <= j < |entries| && Count(entries[j].stats) > 0
        ensures SummaryOf(entries[j]) in gold
      {
        assert gold == prior + (if Count(entries[n].stats) > 0 then [SummaryOf(entries[n])] else []);
        if j < n {
          assert entries[..n][j] == entries[j];
          assert SummaryOf(entries[j]) in prior;
        } else {
          assert gold[|prior|] == SummaryOf(entries[n]);
        }
      }
    }
  }

  /** The gold row a device's readable rows `xs` call for, stated directly
      over the rows: their number, average, extremes (bounding every value
      and attained by one), anomaly count and anomaly percentage. */
  ghost predicate Describes(g: GoldRow, xs: seq<Sample>) {
    && |xs| > 0
    && g.totalReadings == |xs|
    && g.avgValue == SumValues(xs) / (|xs| as real)
    && (forall k :: 0 <= k < |xs| ==> g.minValue <= xs[k].value <= g.maxValue)
    && (exists k :: 0 <= k < |xs| && xs[k].value == g.minValue)
    && (exists k :: 0 <= k < |xs| && xs[k].value == g.maxValue)
    && g.anomalyCount == Flagged(xs)
    && g.anomalyPercentage == (Flagged(xs) as real / |xs| as real) * 100.0
  }

  lemma {:induction false} SummaryDescribes(e: Entry, xs: seq<Sample>)
    requires Count(e.stats) > 0 && Summarizes(e.stats, xs)
    ensures Describes(SummaryOf(e), xs)
  {
  }

  /** Every gold row describes its device's readable rows and obeys the
      bounds. */
  lemma {:induction false} GoldRowsDescribe(parse: string -> Option<real>, rows: seq<Row>)
    requires Aggregate(parse, rows).Ok?
    ensures var gold := Emit(Aggregate(parse, rows).value);
            forall k :: 0 <= k < |gold| ==>
              Describes(gold[k], Contributions(parse, rows, gold[k].device)) && Bounded(gold[k])
  {
    var entries := Aggregate(parse, rows).value;
    var gold := Emit(entries);
    AggregateGroups(parse, rows);
    EmitCoversCounted(entries);
    forall k | 0 <= k < |gold|
      ensures Describes(gold[k], Contributions(parse, rows, gold[k].device)) && Bounded(gold[k])
    {
      var j :| 0 <= j < |entries| && Count(entries[j].stats) > 0 && gold[k] == SummaryOf(entries[j]);
      var xs := Contributions(parse, rows, entries[j].device);
      SummaryDescribes(entries[j], xs);
      SummaryBounded(entries[j], xs);
    }
  }

  ghost predicate HasRowFor(gold: seq<GoldRow>, d: Cell) {
    exists k :: 0 <= k < |gold| && gold[k].device == d
  }

  /** Every device with at least one readable row has a gold row. */
  lemma {:induction false} GoldCoversDevices(parse: string -> Option<real>, rows: seq<Row>, d: Cell)
    requires Aggregate(parse, rows).Ok?
    requires |Contributions(parse, rows, d)| > 0
    ensures HasRowFor(Emit(Aggregate(parse, rows).value), d)
  {
    var entries := Aggregate(parse, rows).value;
    var gold := Emit(entries);
    AggregateGroups(parse, rows);
    EmitCoversCounted(entries);
    if d !in Keyed(rows) {
      ContributorsAreKeyed(parse, rows, d);
    }
    assert d in Devices(entries);
    var j :| 0 <= j < |entries| && Devices(entries)[j] == d;
    assert entries[j].device == d;
    assert SummaryOf(entries[j]) in gold;
    var k :| 0 <= k < |gold| && gold[k] == SummaryOf(entries[j]);
    assert gold[k].device == d;
  }

  /** Gold rows come in first-seen order of their device keys, which makes
      the keys distinct, and their readings add up to all readable rows. */
  lemma {:induction false} GoldOrderAndTotal(parse: string -> Option<real>, rows: seq<Row>)
    requires Aggregate(parse, rows).Ok?
    ensures RowsInOrder(Keyed(rows), Emit(Aggregate(parse, rows).value))
    ensures SumReadings(Emit(Aggregate(parse, rows).value)) == |Readable(parse, rows)|
  {
    var entries := Aggregate(parse, rows).value;
    AggregateGroups(parse, rows);
    EmitKeepsOrder(Keyed(rows), entries);
    EmitKeepsEveryReading(entries);
  }

  /** Ordered rows have distinct device keys. */
  lemma {:induction false} OrderedRowsAreDistinct(keys: seq<Cell>, gold: seq<GoldRow>)
    requires RowsInOrder(keys, gold)
    ensures forall k, l :: 0 <= k < l < |gold| ==> gold[k].device != gold[l].device
  {
  }

  /** The number of distinct device keys among the rows. */
  ghost function KeyCount(rows: seq<Row>): nat {
    |set x | x in Keyed(rows)|
  }

  lemma {:induction false} DistinctCardinality(ds: seq<Cell>)
    requires forall i, j :: 0 <= i < j < |ds| ==> ds[i] != ds[j]
    ensures |set x | x in ds| == |ds|
    decreases |ds|
  {
    if ds != [] {
      var n := |ds| - 1;
      DistinctCardinality(ds[..n]);
      assert (set x | x in ds) == (set x | x in ds[..n]) + {ds[n]};
      assert ds[n] !in ds[..n];
    }
  }

  /** A list of keys in first-seen order that holds exactly the keys seen
      has one element per distinct key. */
  lemma {:induction false} OrderedKeysCount(keys: seq<Cell>, ds: seq<Cell>)
    requires KeysMatch(keys, ds) && FirstSeenOrder(keys, ds)
    ensures |ds| == |set x | x in keys|
  {
    forall i, j | 0 <= i < j < |ds|
      ensures ds[i] != ds[j]
    {
    }
    DistinctCardinality(ds);
    assert (set x | x in ds) == (set x | x in keys);
  }

  /** The dictionary holds one entry per distinct device key, including the
      keys whose every row was skipped. */
  lemma {:induction false} EntriesCountKeys(parse: string -> Option<real>, rows: seq<Row>)
    requires Aggregate(parse, rows).Ok?
    ensures |Aggregate(parse, rows).value| == KeyCount(rows)
  {
    var entries := Aggregate(parse, rows).value;
    AggregateGroups(parse, rows);
    OrderedKeysCount(Keyed(rows), Devices(entries));
  }

  // ---------------------------------------------------------------------
  // The handler.

  datatype Body =
    | NoBody
    | Done(message: string, devicesProcessed: nat, goldFile: string)
    | Error(error: Exception)

  datatype Response = Response(statusCode: int, body: Body)

  /** The response and the gold table written under each key. */
  datatype Outcome = Outcome(response: Response, writes: map<string, seq<GoldRow>>)

  /** A key the stage processes: under `silver/` and ending in `.csv`. */
  predicate Accepts(key: string) {
    Keys.StartsWith(key, Keys.Silver) && Keys.EndsWith(key, Keys.CsvExtension)
  }

  /** `lambda_handler` for one notification on `key`, whose object decodes
      to `table`. Every exception inside the `try` becomes a 500 response
      carrying the error, with nothing written. */
  function Handle(parse: string -> Option<real>, key: string, table: Table): (o: Outcome)
    ensures !Accepts(key) || table.rows == [] ==> o == Outcome(Response(200, NoBody), map[])
    ensures o.response.statusCode == 500 <==> o.response.body.Error?
    ensures o.response.statusCode == 500 ==> o.writes == map[] && o.response.body.error == TypeError
    ensures o.response.body.Done? ==>
              && o.response.statusCode == 200
              && o.response.body.goldFile == Keys.GoldKey(key)
              && Keys.StartsWith(o.response.body.goldFile, Keys.Gold)
              && o.writes.Keys == {o.response.body.goldFile}
              && 1 <= o.response.body.devicesProcessed
              && |o.writes[o.response.body.goldFile]| <= o.response.body.devicesProcessed
    ensures Accepts(key) && table.rows != [] ==>
              (o.response.statusCode == 500 <==> SomeRowFails(parse, table.rows))
    ensures Accepts(key) && table.rows != [] && !SomeRowFails(parse, table.rows) ==> o.response.body.Done?
  {
    if !Accepts(key) then Outcome(Response(200, NoBody), map[])
    else if table.rows == [] then Outcome(Response(200, NoBody), map[])
    else
      match Aggregate(parse, table.rows)
      case Raised(e) => Outcome(Response(500, Error(e)), map[])
      case Ok(entries) =>
        var goldKey := Keys.GoldKey(key);
        Outcome(Response(200, Done(DoneMessage, |entries|, goldKey)), map[goldKey := Emit(entries)])
  }

  /** A processed file's gold table is the reference summary of its rows:
      each gold row describes its device's readable rows and obeys the
      bounds, every device with a readable row has one, the rows come in
      first-seen order with distinct devices, no reading is lost, and the
      reported device count counts every distinct device key. */
  lemma {:induction false} DoneWritesSummary(parse: string -> Option<real>, key: string, table: Table)
    requires Handle(parse, key, table).response.body.Done?
    ensures var o := Handle(parse, key, table);
            var gold := o.writes[o.response.body.goldFile];
            && (forall k :: 0 <= k < |gold| ==>
                  Describes(gold[k], Contributions(parse, table.rows, gold[k].device)) && Bounded(gold[k]))
            && (forall d :: |Contributions(parse, table.rows, d)| > 0 ==> HasRowFor(gold, d))
            && RowsInOrder(Keyed(table.rows), gold)
            && (forall k, l :: 0 <= k < l < |gold| ==> gold[k].device != gold[l].device)
            && SumReadings(gold) == |Readable(parse, table.rows)|
            && o.response.body.devicesProcessed == KeyCount(table.rows)
  {
    var rows := table.rows;
    var o := Handle(parse, key, table);
    assert Aggregate(parse, rows).Ok?;
    var gold := Emit(Aggregate(parse, rows).value);
    assert o.writes[o.response.body.goldFile] == gold;
    GoldRowsDescribe(parse, rows);
    forall d | |Contributions(parse, rows, d)| > 0
      ensures HasRowFor(gold, d)
    {
      GoldCoversDevices(parse, rows, d);
    }
    GoldOrderAndTotal(parse, rows);
    OrderedRowsAreDistinct(Keyed(rows), gold);
    EntriesCountKeys(parse, rows);
  }

  /** A row whose value does not parse is skipped without touching any
      tally, yet its device still gets an entry: the step only registers the
      device. */
  lemma {:induction false} SkippedRowOnlyRegisters(parse: string -> Option<real>, entries: seq<Entry>, row: Row)
    requires ReadRow(parse, row).Skipped?
    ensures Step(parse, entries, row).Ok?
    ensures var out := Step(parse, entries, row).value;
            && DeviceOf(row) in Devices(out)
            && |out| <= |entries| + 1
            && out[..|entries|] == entries
            && (|out| > |entries| ==> out[|entries|] == Entry(DeviceOf(row), Fresh))
  {
  }

  /** A single row with an unparseable value still counts as a processed
      device, but produces no gold row: `devices_processed` can exceed the
      number of gold rows. */
  lemma {:induction false} SkippedDeviceCountsWithoutGoldRow(parse: string -> Option<real>, text: string)
    requires parse(text).None?
    ensures var row := Row(map[DeviceColumn := Text("d1"), ValueColumn := Text(text)], []);
            var o := Handle(parse, "silver/a.csv", Table(Some([DeviceColumn, ValueColumn]), [row]));
            && o.response == Response(200, Done(DoneMessage, 1, "gold/a.csv"))
            && o.writes == map["gold/a.csv" := []]
  {
    var row := Row(map[DeviceColumn := Text("d1"), ValueColumn := Text(text)], []);
    var rows := [row];
    assert Accepts("silver/a.csv");
    assert ValueColumn != DeviceColumn;
    assert ReadRow(parse, row) == Skipped;
    assert rows[..0] == [];
    var entries := [Entry(Text("d1"), Fresh)];
    assert Aggregate(parse, rows) == Ok(entries);
    assert entries[..0] == [];
    assert Emit(entries) == [];
    Keys.ReplaceLeadingTier("a.csv", Keys.Silver, Keys.Gold);
    Keys.ReplaceAllWithoutOccurrence("a.csv", Keys.Silver, Keys.Gold);
  }
}

=== FILE: keys.dfy ===
/** Object-key derivation between tiers. Both stages derive output keys with
    Python's `str.replace`, which rewrites every non-overlapping occurrence of
    the pattern, scanning left to right. */
module Keys {

  const Bronze := "bronze/"
  const Silver := "silver/"
  const Gold := "gold/"
  const Anomalies := "anomalies/"
  const CsvExtension := ".csv"

  /** `s.startswith(p)` */
  predicate StartsWith(s: string, p: string) {
    |p| <= |s| && s[..|p|] == p
  }

  /** `s.endswith(t)` */
  predicate EndsWith(s: string, t: string) {
    |t| <= |s| && s[|s| - |t|..] == t
  }

  /** `pat` occurs in `s` starting at index `i`. */
  ghost predicate OccursAt(s: string, pat: string, i: int) {
    0 <= i && i + |pat| <= |s| && s[i..i + |pat|] == pat
  }

  ghost predicate Occurs(s: string, pat: string) {
    exists i :: OccursAt(s, pat, i)
  }

  /** `s.replace(pat, rep)`: leftmost, non-overlapping, every occurrence.
      The handlers only ever pass non-empty literal patterns. */
  function ReplaceAll(s: string, pat: string, rep: string): (r: string)
    requires |pat| > 0
    ensures rep == pat ==> r == s
    ensures |rep| == |pat| ==> |r| == |s|
    decreases |s|
  {
    if |s| < |pat| then s
    else if s[..|pat|] == pat then rep + ReplaceAll(s[|pat|..], pat, rep)
    else [s[0]] + ReplaceAll(s[1..], pat, rep)
  }

  /** The silver key the classifier derives from a bronze key. */
  function SilverKey(key: string): (r: string)
    ensures StartsWith(key, Bronze) ==> StartsWith(r, Silver)
  {
    ReplaceAll(key, Bronze, Silver)
  }

  /** The anomalies key the classifier derives from a bronze key. */
  function AnomaliesKey(key: string): (r: string)
    ensures StartsWith(key, Bronze) ==> StartsWith(r, Anomalies)
  {
    ReplaceAll(key, Bronze, Anomalies)
  }

  /** The gold key the aggregator derives from a silver key. */
  function GoldKey(key: string): (r: string)
    ensures StartsWith(key, Silver) ==> StartsWith(r, Gold)
  {
    ReplaceAll(key, Silver, Gold)
  }

  /** A key without the pattern is returned unchanged. */
  lemma {:induction false} ReplaceAllWithoutOccurrence(s: string, pat: string, rep: string)
    requires |pat| > 0
    requires !Occurs(s, pat)
    ensures ReplaceAll(s, pat, rep) == s
    decreases |s|
  {
    if |s| >= |pat| {
      assert !OccursAt(s, pat, 0);
      assert s[..|pat|] != pat;
      forall i | OccursAt(s[1..], pat, i)
        ensures false
      {
        assert s[1..][i..i + |pat|] == s[i + 1..i + 1 + |pat|];
        assert OccursAt(s, pat, i + 1);
      }
      ReplaceAllWithoutOccurrence(s[1..], pat, rep);
      assert [s[0]] + s[1..] == s;
    }
  }

  /** Text after the last possible end of an occurrence is copied verbatim:
      if the pattern's last character never appears in `b`, no occurrence can
      end inside `b`. */
  lemma {:induction false} ReplaceAllKeepsTail(a: string, b: string, pat: string, rep: string)
    requires |pat| > 0
    requires pat[|pat| - 1] !in b
    ensures ReplaceAll(a + b, pat, rep) == ReplaceAll(a, pat, rep) + b
    decreases |a|
  {
    var s := a + b;
    if |s| < |pat| {
    } else if s[..|pat|] == pat {
      assert s[|pat| - 1] == pat[|pat| - 1];
      assert |a| >= |pat|;
      assert a[..|pat|] == pat;
      assert s[|pat|..] == a[|pat|..] + b;
      ReplaceAllKeepsTail(a[|pat|..], b, pat, rep);
    } else if |a| == 0 {
      assert s == b;
      forall i | 0 <= i && i + |pat| <= |b|
        ensures !OccursAt(b, pat, i)
      {
        assert b[i..i + |pat|][|pat| - 1] == b[i + |pat| - 1];
      }
      ReplaceAllWithoutOccurrence(b, pat, rep);
    } else {
      assert s[1..] == a[1..] + b;
      ReplaceAllKeepsTail(a[1..], b, pat, rep);
      if |a| >= |pat| {
        assert a[..|pat|] == s[..|pat|];
        assert [a[0]] + a[1..] == a;
      } else {
        assert [a[0]] + a[1..] + b == s;
      }
    }
  }

  /** Text before the first possible start of an occurrence is copied
      verbatim. */
  lemma {:induction false} ReplaceAllKeepsHead(a: string, b: string, pat: string, rep: string)
    requires |pat| > 0
    requires pat[0] !in a
    ensures ReplaceAll(a + b, pat, rep) == a + ReplaceAll(b, pat, rep)
    decreases |a|
  {
    if |a| > 0 {
      var s := a + b;
      assert s[1..] == a[1..] + b;
      ReplaceAllKeepsHead(a[1..], b, pat, rep);
      if |s| >= |pat| {
        assert s[..|pat|][0] == a[0];
        assert [a[0]] + a[1..] == a;
      } else {
        assert b == ReplaceAll(b, pat, rep);
      }
    } else {
      assert a + b == b;
    }
  }

  /** A key that starts with the source tier starts with the destination tier
      and keeps the rest of the key, itself rewritten the same way. */
  lemma {:induction false} ReplaceLeadingTier(name: string, pat: string, rep: string)
    requires |pat| > 0
    ensures ReplaceAll(pat + name, pat, rep) == rep + ReplaceAll(name, pat, rep)
  {
    assert (pat + name)[..|pat|] == pat;
    assert (pat + name)[|pat|..] == name;
  }

  /** A key made of the bronze tier and a name without `bronze/` in it
      gives the silver and anomalies keys made of the new tier and the same
      name. */
  lemma {:induction false} LeadingBronzeIsSwapped(name: string)
    requires !Occurs(name, Bronze)
    ensures SilverKey(Bronze + name) == Silver + name
    ensures AnomaliesKey(Bronze + name) == Anomalies + name
  {
    ReplaceLeadingTier(name, Bronze, Silver);
    ReplaceLeadingTier(name, Bronze, Anomalies);
    ReplaceAllWithoutOccurrence(name, Bronze, Silver);
    ReplaceAllWithoutOccurrence(name, Bronze, Anomalies);
  }

  /** A key made of the silver tier and a name without `silver/` in it
      gives the gold key made of `gold/` and the same name. */
  lemma {:induction false} LeadingSilverIsSwapped(name: string)
    requires !Occurs(name, Silver)
    ensures GoldKey(Silver + name) == Gold + name
  {
    ReplaceLeadingTier(name, Silver, Gold);
    ReplaceAllWithoutOccurrence(name, Silver, Gold);
  }

  /** Rewriting a tier segment (which ends in `/`) keeps the `.csv`
      extension, so a derived key passes the next stage's extension test. */
  lemma {:induction false} KeepsCsvExtension(key: string, pat: string, rep: string)
    requires |pat| > 0 && pat[|pat| - 1] == '/'
    requires EndsWith(key, CsvExtension)
    ensures EndsWith(ReplaceAll(key, pat, rep), CsvExtension)
  {
    var a := key[..|key| - |CsvExtension|];
    assert key == a + CsvExtension;
    ReplaceAllKeepsTail(a, CsvExtension, pat, rep);
  }

  /** Every occurrence is rewritten, not only the first: a key that
      mentions `bronze/` twice, with a directory in between that cannot start
      another occurrence, has both mentions turned into `silver/`. */
  lemma {:induction false} EveryOccurrenceIsRewritten(dir: string, file: string)
    requires Bronze[0] !in dir
    ensures SilverKey(Bronze + dir + Bronze + file) == Silver + dir + Silver + SilverKey(file)
  {
    var rest := Bronze + file;
    assert Bronze + dir + Bronze + file == Bronze + (dir + rest);
    ReplaceLeadingTier(dir + rest, Bronze, Silver);
    ReplaceAllKeepsHead(dir, rest, Bronze, Silver);
    ReplaceLeadingTier(file, Bronze, Silver);
  }

  /** A key under `bronze/` gives two different output keys, so the
      anomalies write cannot replace the silver one. */
  lemma {:induction false} BronzeKeysDiffer(key: string)
    requires StartsWith(key, Bronze)
    ensures SilverKey(key) != AnomaliesKey(key)
  {
    assert SilverKey(key)[0] == Silver[0];
    assert AnomaliesKey(key)[0] == Anomalies[0];
  }

  /** A key with no `bronze/` in it maps both outputs of the classifier onto
      the input key itself, and so onto each other. */
  lemma {:induction false} UnprefixedKeyCollides(key: string)
    requires !Occurs(key, Bronze)
    ensures SilverKey(key) == key && AnomaliesKey(key) == key
  {
    ReplaceAllWithoutOccurrence(key, Bronze, Silver);
    ReplaceAllWithoutOccurrence(key, Bronze, Anomalies);
  }
}

=== FILE: pipeline.dfy ===
/** How the two stages connect: the silver key the classifier writes is one
    the aggregator accepts, and the silver table it writes holds no row the
    aggregator would count as an anomaly. */
module Pipeline {
  import opened Basics
  import opened Tables
  import Keys
  import Bronze
  import Gold

  /** A bronze `.csv` key under `bronze/` gives a silver key that the
      aggregator processes rather than ignores. */
  lemma {:induction false} SilverKeyIsAccepted(key: string)
    requires Keys.StartsWith(key, Keys.Bronze) && Keys.EndsWith(key, Keys.CsvExtension)
    ensures Gold.Accepts(Keys.SilverKey(key))
  {
    Keys.KeepsCsvExtension(key, Keys.Bronze, Keys.Silver);
  }

  /** A row the classifier kept in silver, once written and read back, is
      never read by the aggregator as a sample above the threshold: its score
      cell is either absent (read as 0), the same text the classifier parsed
      to a score of at most 0.5, or text that does not parse (the empty text
      written for a `None` cell, or an unparseable score), which skips the
      row. */
  lemma {:induction false} BlankNormalRowIsNotFlagged(parse: string -> Option<real>, r: Row)
    requires parse("").None?
    requires !Bronze.IsAnomaly(parse, r)
    ensures LowScore(Gold.ReadRow(parse, Blank(r)))
  {
    if ScoreColumn in r.fields && r.fields[ScoreColumn].Text? {
      assert Blank(r).fields[ScoreColumn] == r.fields[ScoreColumn];
    } else if ScoreColumn in r.fields {
      assert Blank(r).fields[ScoreColumn] == Text("");
    }
  }

  /** No readable row scores above the threshold. */
  ghost predicate NoHighScore(parse: string -> Option<real>, rows: seq<Row>) {
    forall i :: 0 <= i < |rows| ==> LowScore(Gold.ReadRow(parse, rows[i]))
  }

  predicate LowScore(r: Gold.Reading) {
    r.Contributes? ==> r.sample.score <= Threshold
  }

  /** A device none of whose readable rows scores above the threshold has
      no anomalies. */
  lemma {:induction false} NothingFlagged(parse: string -> Option<real>, rows: seq<Row>, d: Cell)
    requires NoHighScore(parse, rows)
    ensures Gold.Flagged(Gold.Contributions(parse, rows, d)) == 0
    decreases |rows|
  {
    if rows != [] {
      var n := |rows| - 1;
      var prior := rows[..n];
      assert NoHighScore(parse, prior) by {
        forall i | 0 <= i < n
          ensures LowScore(Gold.ReadRow(parse, prior[i]))
        {
          assert prior[i] == rows[i];
        }
      }
      NothingFlagged(parse, prior, d);
      var before := Gold.Contributions(parse, prior, d);
      var xs := Gold.Contributions(parse, rows, d);
      var r := Gold.ReadRow(parse, rows[n]);
      assert LowScore(r);
      if Gold.DeviceOf(rows[n]) == d && r.Contributes? {
        assert xs == before + [r.sample];
        assert xs[..|xs| - 1] == before;
      } else {
        assert xs == before + [];
        assert before + [] == before;
      }
    }
  }

  /** Rows selected by the classifier are rows of its input. */
  lemma {:induction false} SelectedRowsAreInput(parse: string -> Option<real>, rows: seq<Row>, anomalous: bool)
    ensures forall k :: 0 <= k < |Bronze.Select(parse, rows, anomalous)| ==>
              Bronze.Select(parse, rows, anomalous)[k] in rows
              && Bronze.IsAnomaly(parse, Bronze.Select(parse, rows, anomalous)[k]) == anomalous
    decreases |rows|
  {
    if rows != [] {
      SelectedRowsAreInput(parse, rows[1..], anomalous);
      var tail := Bronze.Select(parse, rows[1..], anomalous);
      forall k | 0 <= k < |tail|
        ensures tail[k] in rows
      {
        assert tail[k] in rows[1..];
      }
    }
  }

  /** The silver table the classifier writes reads back as its silver rows,
      blanked. */
  lemma {:induction false} SilverReadsBack(parse: string -> Option<real>, key: string, table: Table)
    requires Keys.EndsWith(key, Keys.CsvExtension)
    requires WellFormed(table) && table.header.Some? && |table.header.value| > 0
    requires Bronze.Handle(parse, key, table).Returned?
    requires Keys.SilverKey(key) != Keys.AnomaliesKey(key)
    ensures Decode(Bronze.Handle(parse, key, table).writes[Keys.SilverKey(key)])
         == Table(table.header, Blanks(Bronze.Select(parse, table.rows, false)))
  {
    var h := table.header.value;
    var normal := Bronze.Select(parse, table.rows, false);
    Bronze.WritesBothPartitions(parse, key, table);
    Bronze.ProcessedIffAllRowsFit(parse, key, table);
    SelectedRowsAreInput(parse, table.rows, false);
    forall k | 0 <= k < |normal|
      ensures normal[k].fields.Keys == Names(h) && normal[k].surplus == []
    {
      var i :| 0 <= i < |table.rows| && table.rows[i] == normal[k];
    }
    WriteThenRead(h, normal);
  }

  /** The classifier's silver rows, blanked, hold no readable row above the
      threshold. */
  lemma {:induction false} SilverScoresLow(parse: string -> Option<real>, rows: seq<Row>)
    requires parse("").None?
    ensures NoHighScore(parse, Blanks(Bronze.Select(parse, rows, false)))
  {
    var normal := Bronze.Select(parse, rows, false);
    var silverRows := Blanks(normal);
    SelectedRowsAreInput(parse, rows, false);
    forall i | 0 <= i < |silverRows|
      ensures LowScore(Gold.ReadRow(parse, silverRows[i]))
    {
      BlankNormalRowIsNotFlagged(parse, normal[i]);
    }
  }

  /** Rows none of which scores above the threshold give gold rows with no
      anomalies. */
  lemma {:induction false} LowScoresGiveNoAnomalies(parse: string -> Option<real>, key: string, table: Table)
    requires NoHighScore(parse, table.rows)
    ensures var o := Gold.Handle(parse, key, table);
            o.response.body.Done? ==>
              forall k :: 0 <= k < |o.writes[o.response.body.goldFile]| ==>
                o.writes[o.response.body.goldFile][k].anomalyCount == 0
  {
    var o := Gold.Handle(parse, key, table);
    if o.response.body.Done? {
      Gold.DoneWritesSummary(parse, key, table);
      var gold := o.writes[o.response.body.goldFile];
      forall k | 0 <= k < |gold|
        ensures gold[k].anomalyCount == 0
      {
        NothingFlagged(parse, table.rows, gold[k].device);
      }
    }
  }

  /** End to end: when the classifier processes a decoded bronze table and
      writes its silver table under a key of its own, the aggregator run on
      that silver table reports an anomaly count of 0 for every device, since
      the rows above the threshold went to the anomalies table instead. This
      holds for any float parser that rejects the empty text, as Python's
      `float` does. */
  lemma {:induction false} SilverHasNoAnomalies(parse: string -> Option<real>, key: string, table: Table)
    requires parse("").None?
    requires Keys.EndsWith(key, Keys.CsvExtension)
    requires WellFormed(table) && table.header.Some? && |table.header.value| > 0
    requires Bronze.Handle(parse, key, table).Returned?
    requires Keys.SilverKey(key) != Keys.AnomaliesKey(key)
    ensures var silverKey := Keys.SilverKey(key);
            var silver := Decode(Bronze.Handle(parse, key, table).writes[silverKey]);
            var o := Gold.Handle(parse, silverKey, silver);
            o.response.body.Done? ==>
              forall k :: 0 <= k < |o.writes[o.response.body.goldFile]| ==>
                o.writes[o.response.body.goldFile][k].anomalyCount == 0
  {
    SilverReadsBack(parse, key, table);
    SilverScoresLow(parse, table.rows);
    var silver := Decode(Bronze.Handle(parse, key, table).writes[Keys.SilverKey(key)]);
    LowScoresGiveNoAnomalies(parse, Keys.SilverKey(key), silver);
  }
}

=== FILE: tables.dfy ===
/** The tabular codec both stages share, at the level of already-split CSV
    records: `csv.DictReader` turns records into string-keyed rows, and
    `csv.DictWriter` turns rows back into records under a given header.
    Quoting and escaping of the text are below this level. */
module Tables {
  import opened Basics

  const DeviceColumn := "device_id"
  const ValueColumn := "value"
  const ScoreColumn := "anomaly_score"

  /** One cell of a decoded row. `Null` is the `None` that `DictReader`
      stores for a column the record is too short to reach. */
  datatype Cell = Text(text: string) | Null

  /** One decoded row: the column-to-cell dictionary, plus the cells beyond
      the header that `DictReader` keeps under its `None` rest key (empty
      when the record is not longer than the header). */
  datatype Row = Row(fields: map<string, Cell>, surplus: seq<string>)

  /** A decoded table. `header` is `reader.fieldnames`, which is `None` when
      the input holds no record at all. */
  datatype Table = Table(header: Option<seq<string>>, rows: seq<Row>)

  /** One CSV record, as `csv.reader` yields it. */
  type Record = seq<string>

  function Names(header: seq<string>): set<string> {
    set f | f in header
  }

  ghost predicate Distinct(header: seq<string>) {
    forall i, j :: 0 <= i < j < |header| ==> header[i] != header[j]
  }

  /** The shape every table `DictReader` produces: no rows without a header,
      and every row keyed by exactly the header's names. */
  ghost predicate WellFormed(t: Table) {
    && (t.header.None? ==> t.rows == [])
    && (t.header.Some? ==> forall i :: 0 <= i < |t.rows| ==> t.rows[i].fields.Keys == Names(t.header.value))
  }

  /** `dict(zip(header, record))` followed by padding the missing columns
      with `None`: the columns are assigned in header order, so a repeated
      column name keeps its last assignment. */
  function Fields(header: seq<string>, record: Record): (m: map<string, Cell>)
    ensures m.Keys == Names(header)
    decreases |header|
  {
    if header == [] then map[]
    else
      var n := |header| - 1;
      assert header == header[..n] + [header[n]];
      Fields(header[..n], record)[header[n] := if n < |record| then Text(record[n]) else Null]
  }

  /** One data record decoded under `header`. */
  function RowOf(header: seq<string>, record: Record): Row {
    Row(Fields(header, record), if |record| > |header| then record[|header|..] else [])
  }

  /** The data records after the header; blank records are skipped. */
  function RowsOf(header: seq<string>, records: seq<Record>): (rows: seq<Row>)
    ensures |rows| <= |records|
    ensures forall i :: 0 <= i < |rows| ==> rows[i].fields.Keys == Names(header)
    ensures (forall i :: 0 <= i < |records| ==> |records[i]| <= |header|) ==>
              forall i :: 0 <= i < |rows| ==> rows[i].surplus == []
  {
    if records == [] then []
    else if records[0] == [] then RowsOf(header, records[1..])
    else [RowOf(header, records[0])] + RowsOf(header, records[1..])
  }

  /** `list(csv.DictReader(...))` together with `reader.fieldnames`. */
  function Decode(records: seq<Record>): (t: Table)
    ensures WellFormed(t)
    ensures t.header.None? <==> records == []
    ensures t.header.Some? ==> t.header.value == records[0] && |t.rows| < |records|
  {
    if records == [] then Table(None, [])
    else Table(Some(records[0]), RowsOf(records[0], records[1..]))
  }

  /** `None` is written as the empty string. */
  function CellText(c: Cell): string {
    match c
    case Text(s) => s
    case Null => ""
  }

  /** The text written for column `name`: a column the row lacks is
      written with `DictWriter`'s default rest value, the empty string. */
  function Written(row: Row, name: string): string {
    if name in row.fields then CellText(row.fields[name]) else ""
  }

  /** `DictWriter` refuses a row with a key outside the header (the `None`
      rest key included). */
  predicate Fits(header: seq<string>, row: Row) {
    row.fields.Keys <= Names(header) && row.surplus == []
  }

  predicate AllFit(header: seq<string>, rows: seq<Row>) {
    forall i :: 0 <= i < |rows| ==> Fits(header, rows[i])
  }

  lemma {:induction false} AllFitAppend(header: seq<string>, a: seq<Row>, b: seq<Row>)
    ensures AllFit(header, a + b) <==> AllFit(header, a) && AllFit(header, b)
  {
    if AllFit(header, a) && AllFit(header, b) {
      forall i | 0 <= i < |a + b|
        ensures Fits(header, (a + b)[i])
      {
        if i >= |a| {
          assert (a + b)[i] == b[i - |a|];
        }
      }
    }
    if AllFit(header, a + b) {
      forall i | 0 <= i < |a|
        ensures Fits(header, a[i])
      {
        assert (a + b)[i] == a[i];
      }
      forall i | 0 <= i < |b|
        ensures Fits(header, b[i])
      {
        assert (a + b)[|a| + i] == b[i];
      }
    }
  }

  function Line(header: seq<string>, row: Row): (r: Record)
    ensures |r| == |header|
  {
    seq(|header|, i requires 0 <= i < |header| => Written(row, header[i]))
  }

  function Lines(header: seq<string>, rows: seq<Row>): (r: seq<Record>)
    ensures |r| == |rows|
    ensures forall i :: 0 <= i < |rows| ==> r[i] == Line(header, rows[i])
  {
    if rows == [] then [] else [Line(header, rows[0])] + Lines(header, rows[1..])
  }

  /** `writeheader()` then `writerows(rows)`. With no rows only the header
      is written. A missing header raises `TypeError` before anything
      else; a row that does not fit raises `ValueError`. */
  function Encode(header: Option<seq<string>>, rows: seq<Row>): (r: Result<seq<Record>>)
    ensures r.Ok? <==> header.Some? && AllFit(header.value, rows)
    ensures header.None? ==> r == Raised(TypeError)
    ensures r.Ok? ==> |r.value| == |rows| + 1 && r.value[0] == header.value
    ensures r.Ok? ==> forall i :: 1 <= i < |r.value| ==> |r.value[i]| == |header.value|
  {
    if header.None? then Raised(TypeError)
    else if !AllFit(header.value, rows) then Raised(ValueError)
    else Ok([header.value] + Lines(header.value, rows))
  }

  /** What survives a write and a re-read: `None` cells come back as empty
      text. */
  function Blank(row: Row): (r: Row)
    ensures r.fields.Keys == row.fields.Keys
    ensures forall f :: f in r.fields ==> r.fields[f].Text?
  {
    Row(map f | f in row.fields :: Text(CellText(row.fields[f])), row.surplus)
  }

  /** Every row of `rows` blanked. */
  function Blanks(rows: seq<Row>): (r: seq<Row>)
    ensures |r| == |rows|
    ensures forall i :: 0 <= i < |rows| ==> r[i] == Blank(rows[i])
  {
    if rows == [] then [] else [Blank(rows[0])] + Blanks(rows[1..])
  }

  /** Under a header without repeated names, each column reads the cell at
      its own position, or `None` past the end of the record. */
  lemma {:induction false} FieldsAtPosition(header: seq<string>, record: Record, i: int)
    requires Distinct(header)
    requires 0 <= i < |header|
    ensures Fields(header, record)[header[i]] == if i < |record| then Text(record[i]) else Null
    decreases |header|
  {
    var n := |header| - 1;
    if i < n {
      FieldsAtPosition(header[..n], record, i);
    }
  }

  /** Decoding a written line gives back, for every header name, the text
      the writer put there. */
  lemma {:induction false} FieldsOfLine(header: seq<string>, row: Row, k: nat, f: string)
    requires k <= |header| && f in header[..k]
    ensures Fields(header[..k], Line(header, row))[f] == Text(Written(row, f))
    decreases k
  {
    var h := header[..k];
    assert h[..k - 1] == header[..k - 1];
    assert h[k - 1] == header[k - 1];
    if f != header[k - 1] {
      assert f in header[..k - 1] by {
        var i :| 0 <= i < k && h[i] == f;
        assert header[..k - 1][i] == f;
      }
      FieldsOfLine(header, row, k - 1, f);
    }
  }

  /** A written row reads back as its blanked self. */
  lemma {:induction false} LineReadsBack(header: seq<string>, row: Row)
    requires |header| > 0
    requires row.fields.Keys == Names(header) && row.surplus == []
    ensures Line(header, row) != []
    ensures RowOf(header, Line(header, row)) == Blank(row)
  {
    var line := Line(header, row);
    assert header[..|header|] == header;
    forall f | f in Names(header)
      ensures Fields(header, line)[f] == Blank(row).fields[f]
    {
      FieldsOfLine(header, row, |header|, f);
    }
    assert Fields(header, line) == Blank(row).fields;
  }

  lemma {:induction false} RowsOfLines(header: seq<string>, rows: seq<Row>)
    requires |header| > 0
    requires forall i :: 0 <= i < |rows| ==> rows[i].fields.Keys == Names(header) && rows[i].surplus == []
    ensures RowsOf(header, Lines(header, rows)) == Blanks(rows)
    decreases |rows|
  {
    if rows != [] {
      RowsOfLines(header, rows[1..]);
      LineReadsBack(header, rows[0]);
    }
  }

  /** Writing a decoded table and reading it back gives the same header and
      the same rows, except that `None` cells come back as empty text. A
      header-less table is excluded (writing it raises), and so is an empty
      header, whose lines read back as blank records. */
  lemma {:induction false} WriteThenRead(header: seq<string>, rows: seq<Row>)
    requires |header| > 0
    requires WellFormed(Table(Some(header), rows))
    requires forall i :: 0 <= i < |rows| ==> rows[i].surplus == []
    ensures Encode(Some(header), rows).Ok?
    ensures Decode(Encode(Some(header), rows).value)
         == Table(Some(header), Blanks(rows))
  {
    var out := Encode(Some(header), rows);
    assert out.Ok?;
    assert out.value[1..] == Lines(header, rows);
    RowsOfLines(header, rows);
  }

  /** An empty row set is written as the header alone, and reads back as the
      same header with no rows, whatever the header is. */
  lemma {:induction false} HeaderOnlyRoundTrip(header: seq<string>)
    ensures Encode(Some(header), []) == Ok([header])
    ensures Decode([header]) == Table(Some(header), [])
  {
    assert Lines(header, []) == [];
    assert [header] + [] == [header];
    assert [header][1..] == [];
  }

  /** Reading records whose header has no repeated name and whose data
      records all have the header's width, then writing them back, gives the
      same records. */
  lemma {:induction false} ReadThenWrite(records: seq<Record>)
    requires records != [] && |records[0]| > 0 && Distinct(records[0])
    requires forall i :: 1 <= i < |records| ==> |records[i]| == |records[0]|
    ensures Encode(Decode(records).header, Decode(records).rows) == Ok(records)
  {
    var header := records[0];
    ReadThenWriteRows(header, records[1..]);
    assert records == [header] + records[1..];
  }

  lemma {:induction false} ReadThenWriteRows(header: seq<string>, records: seq<Record>)
    requires |header| > 0 && Distinct(header)
    requires forall i :: 0 <= i < |records| ==> |records[i]| == |header|
    ensures forall i :: 0 <= i < |RowsOf(header, records)| ==> Fits(header, RowsOf(header, records)[i])
    ensures Lines(header, RowsOf(header, records)) == records
    decreases |records|
  {
    if records != [] {
      ReadThenWriteRows(header, records[1..]);
      var r := records[0];
      assert r != [];
      var row := RowOf(header, r);
      forall i | 0 <= i < |header|
        ensures Line(header, row)[i] == r[i]
      {
        FieldsAtPosition(header, r, i);
      }
      assert Line(header, row) == r;
      var rows := RowsOf(header, records);
      assert rows == [row] + RowsOf(header, records[1..]);
      assert records == [r] + records[1..];
    }
  }
}
